=== FILE: README.md ===
# Ingestion pipeline of the chatbot backend, modelled in Dafny

This project models the ingestion side of a FastAPI chatbot backend. The
backend accepts three kinds of source material: single web pages,
same-domain crawls and uploaded documents. It cuts their text into chunks,
embeds the chunks and upserts one vector per chunk into the user's namespace
of a vector index. A PostgreSQL table records each crawl job's status and
the URLs and documents each user has ingested. The model also covers the two
read paths that feed the chat: retrieving chunk texts from the index, and
the context string built from PubMed search results.

Every foreign service is a function-typed parameter: the semantic splitter,
the embedding API, the index upsert and query, the headless browser, the
HTML parser, `urljoin`/`urlparse`, the PDF/DOCX/EPUB readers and the PubMed
HTTP calls. A call that may raise returns a `Result` (`Outcomes`). The
database is an in-memory `Store` of two maps: crawl jobs keyed by job id, and
users keyed by user id. Each SQL statement is a pure function on the store.
A database statement that raises is passed in as a fault message, and the
store is then left as it was.

Modules, one per source file plus shared helpers:

- `Outcomes`: `Option` and `Result`, with `:-` propagation standing for a
  re-raised exception.
- `Strings`: prefixes, concatenation, separator join and split, the
  "unit + newline" shape and ASCII lower-casing.
- `Chunking`: `get_chunks`.
- `Vectors`: the vector records that every ingestion path builds.
- `Database`: `db_operations`.
- `WebCrawler`: `web_crawler`.
- `DocumentProcessor`: `document_processor`.
- `Retrieval`: `retrieve_chunks`.
- `Articles`: `retreive_articles`.
- `UploadRouter`: the endpoints of `data_upload_router`.

Three places where the documented intent and the code differ; the model
follows the code:

- The crawl's seed URL need not start with its own domain prefix. For
  example, `http://example.com` does not start with `http://example.com/`.
  So the confinement invariant reads "the seed, or under the domain
  prefix".
- A job's status is not final once it is `succeeded` or `failed`. An inner
  failure writes `failed` and the outer handler writes it again. A later
  failing step can even overwrite `succeeded` with `failed`.
- During a crawl, chunking, embedding and upsert errors do not fail the
  job. `process_and_upsert_content` turns them into `False` and the page is
  skipped. Only the status writes, the recording of the seed URL,
  `urlparse` of the seed, browser start-up, link extraction (the HTML
  parser or a `urljoin`) and `driver.quit()` can fail the job.

## Model

| member | source | states |
|---|---|---|
| `Chunking.Windows` | utils/data_upload_utils.py:18-23 | The windows concatenate back to the text. Each window has at most 7000 characters, and all but the last have exactly 7000. There is always at least one window. Above 7000 characters no window is empty. |
| `Chunking.WindowsIndexed` | utils/data_upload_utils.py:20-21 | For non-empty text there are ceil(len/7000) windows. Window k is `text[7000k : min(7000(k+1), len)]`, so windows follow text order. |
| `Chunking.ShortTextOneWindow` | utils/data_upload_utils.py:22-23 | Text of at most 7000 characters, including the empty string, is exactly one window equal to the text. |
| `Chunking.PreSplit` | utils/data_upload_utils.py:18-23 | The `range(0, len, 7000)` loop produces exactly the recursive windows, their count and the k-th slice at index k. |
| `Chunking.NodeTexts` | utils/data_upload_utils.py:26-28 | One chunk per splitter node, in node order, each equal to the node's text. |
| `Chunking.GetChunksContract` | utils/data_upload_utils.py:25-32 | `get_chunks` raises exactly when the splitter does, with the same message. Otherwise it returns one chunk per node, in order. |
| `Vectors.BuildVectors` | utils/web_crawler.py:108-117 | One vector per chunk, in chunk order. Each carries the chunk's embedding and metadata `text` = the chunk, plus the given `source`. |
| `Vectors.TextsOfBuiltVectors` | utils/document_processor.py:93-103 | Reading back the `text` metadata of the built vectors gives the chunks, in order. |
| `Database.CreateCrawlingJob` | utils/db_operations.py:303-314 | Inserts exactly one new `pending` row under `"job_" + uuid`, with no completion time and no error. Returns that id. Other rows and users are unchanged. |
| `Database.UpdateJobStatus` | utils/db_operations.py:335-346 | Sets the status and `completed_at`, whatever the new status is. Sets the error message only when it is truthy, else keeps the old one. Other rows are unchanged, and an unknown id changes nothing. |
| `Database.GetJobStatus` | utils/db_operations.py:372-388 | Returns a view exactly when a row matches both the job id and the user id. The view carries that row's fields. |
| `Database.CreatedJobReadsPending` | utils/db_operations.py:305-308 | A created job reads back as `pending` for its owner, and as missing for any other user. |
| `Database.UpdatedJobReadsStatus` | utils/db_operations.py:336-346 | After an update, the owner reads the new status and the completion time. |
| `Database.AppendColumn` | utils/db_operations.py:525-529 | `array_cat` on an existing user puts the old array, NULL read as empty, followed by the new elements. Every other column, user and job is unchanged. |
| `Database.ReadAfterAppend` | utils/db_operations.py:244-248 | Reading after an append gives the old contents plus the new elements for that user and column. All other reads are unchanged. |
| `Database.UpdateSinglePageUrls` | utils/db_operations.py:244-248 | Appends exactly one URL to the end of that user's single-page URLs. No other list or user changes. |
| `Database.UpdateWebCrawlUrls` | utils/db_operations.py:272-276 | Appends exactly one URL to the end of that user's crawl URLs. No other list or user changes. |
| `Database.UpdateUserDocuments` | utils/db_operations.py:525-529 | Appends the given names, in order, to that user's documents. No other list or user changes. |
| `Database.GetSinglePageUrls` | utils/db_operations.py:417 | Returns `[]` for a missing user or a NULL array, else the stored array. |
| `Database.GetWebCrawlUrls` | utils/db_operations.py:446 | Returns `[]` for a missing user or a NULL array, else the stored array. |
| `Database.GetUserDocuments` | utils/db_operations.py:561 | Returns `[]` for a missing user or a NULL array, else the stored array. |
| `Database.CheckUserExists` | utils/db_operations.py:469-475 | True exactly when a user row with that id exists. |
| `Database.CheckEmailExists` | utils/db_operations.py:498-504 | True exactly when some user row has that email. |
| `WebCrawler.GetDomain` | utils/web_crawler.py:30-31 | Raises exactly when `urlparse` does, with its message. Otherwise the domain is `scheme://`, then the network location, then a closing `/`. |
| `WebCrawler.GetDomainInjective` | utils/web_crawler.py:30-31 | Two parsable URLs get the same domain prefix exactly when `urlparse` gives them the same scheme and network location. |
| `WebCrawler.DomainInjective` | utils/web_crawler.py:30-31 | Two URLs have the same domain prefix exactly when their scheme and network location agree. |
| `WebCrawler.GetPageContent` | utils/web_crawler.py:57-66 | Returns the page source, or `""` when loading raised. It never raises. |
| `WebCrawler.SameDomainLinks` | utils/web_crawler.py:82-88 | Raises exactly when some `urljoin` does, with the message of the first one. Otherwise every kept link starts with the domain, every joined href that starts with it is kept, and every link comes from some href. |
| `WebCrawler.ExtractLinks` | utils/web_crawler.py:79-90 | Raises exactly when HTML parsing or one of the `urljoin` calls does; a parser error propagates unchanged. Otherwise every returned link starts with the domain. |
| `WebCrawler.ProcessAndUpsertContentTruth` | utils/web_crawler.py:105-123 | A page counts as processed exactly when chunking succeeded and the upsert of one vector per chunk returned true. No exception escapes. |
| `WebCrawler.Visit` | utils/web_crawler.py:147-163 | The popped URL always leaves the frontier. It enters `visited` only when its content is non-empty and was upserted. Only then do its links minus `visited` join the frontier. Disjointness is kept. An exception comes only from link extraction on an accepted page. |
| `WebCrawler.VisitKeepsInvariant` | utils/web_crawler.py:146-166 | Each iteration keeps the invariant: disjointness, the depth bound, confinement to the seed or the domain, and every visited page accepted. Each iteration also decreases (depth - visited, frontier size) lexicographically. |
| `WebCrawler.CrawlLoop` | utils/web_crawler.py:142-166 | The loop terminates with an empty frontier or `depth` visited pages, and never more than `depth`. Visited and frontier are disjoint and confined, and every visited page was accepted. Every visited or pending URL is the seed or a link of a visited page. An accepted seed is always visited. The seed and every accepted link of a visited page are visited or still pending. An exception comes from link extraction of an accepted page that is the seed or a link of an accepted page. |
| `WebCrawler.VisitKeepsLinked` | utils/web_crawler.py:147-163 | An iteration adds only links of the page it accepted, so every known URL stays the seed or a link of a visited page. |
| `WebCrawler.VisitKeepsNothingMissed` | utils/web_crawler.py:146-163 | An iteration loses no accepted page reachable from the seed. A popped page leaves the frontier only when it was visited or is not accepted. An accepted page's links join the frontier. |
| `WebCrawler.CrawlPages` | utils/web_crawler.py:142-166 | Every visited page is the seed or a link of a visited page. A completed loop has visited an accepted seed. When it ends below the page budget, the visited set is closed under accepted links. |
| `WebCrawler.DriverSession` | utils/web_crawler.py:145-176 | `driver.quit()` is called on every path, in the `finally` branch. The session ends cleanly exactly when the loop, the `succeeded` write and `quit` all complete. It writes `succeeded`, or `failed` after an error, and the loop's error is re-raised. Other jobs are unchanged. Every visited page is the seed or a link of a visited page, and a completed loop visited an accepted seed. |
| `WebCrawler.CrawlAttempt` | utils/web_crawler.py:136-176 | The outer `try` body writes `pending` first. The browser starts only when the writes and `urlparse` of the seed complete. A seed `urlparse` rejects raises its `ValueError`. The attempt raises nothing exactly when the browser started and the loop, the `succeeded` write and `driver.quit()` all completed. A `succeeded` write stays last only when nothing raised or `quit` raised. |
| `WebCrawler.CrawlWebsite` | utils/web_crawler.py:135-182 | `pending` is written first. The job succeeds exactly when every step completes, and then the writes are `[pending, succeeded]`. Otherwise the job's error is raised: the one of the failing step, or the database error when the outer `failed` write itself raises (line 180). When that outer write completes, the last status is `failed`, carrying the error text when it is non-empty. The browser quits exactly when it was started. The seed URL is recorded once. The crawl visits only the seed and links of visited pages. A completed crawl visited an accepted seed. Below the page budget it missed no accepted same-domain page reachable from the seed. |
| `DocumentProcessor.SplitExt` | utils/document_processor.py:79 | `splitext` splits the name into root and extension, which concatenate back to the name. A non-empty extension starts at a dot and holds no further dot or slash. |
| `DocumentProcessor.ExtensionOfLower` | utils/document_processor.py:79 | Splitting the lower-cased name gives the lower-cased extension. |
| `DocumentProcessor.ExtensionIgnoresCase` | utils/document_processor.py:79 | Names that are equal up to ASCII case select the same extension. |
| `DocumentProcessor.FormatOf` | utils/document_processor.py:80-89 | `.pdf`, `.docx`, `.epub` and `.txt` each select exactly their own extractor. Any other extension, `""` included, raises `Unsupported file type: <ext>`. |
| `DocumentProcessor.DocumentTexts` | utils/document_processor.py:48-51 | EPUB text comes from exactly the `ITEM_DOCUMENT` items. |
| `DocumentProcessor.DocumentTextsAppend` | utils/document_processor.py:48-51 | EPUB document texts keep book order. |
| `DocumentProcessor.ExtractText` | utils/document_processor.py:18-64 | TXT is the file's text unchanged. PDF, DOCX and EPUB raise exactly when their reader does, with its message. Their output is the concatenation of the units, each followed by one newline, in document order. |
| `DocumentProcessor.AppendUnits` | utils/document_processor.py:21-26 | The `text += unit + "\n"` loop gives each unit followed by its newline, concatenated in order. |
| `DocumentProcessor.ExtractedUnitsRecoverable` | utils/document_processor.py:24-25 | Each unit is followed by exactly one newline, so splitting the output gives back the units when none holds a newline. |
| `DocumentProcessor.ProcessDocumentContract` | utils/document_processor.py:79-105 | An unsupported extension raises its `ValueError`. For a supported one, an extractor or splitter error propagates with its own message. When both complete, the document is processed. Its text is the extractor's output, and there is one vector per chunk, in order, with metadata `{text: chunk, source: file name}`. |
| `DocumentProcessor.FileStepOfContract` | utils/document_processor.py:127-138 | A file's save raises exactly when the save step fails. The file counts as upserted exactly when saving, processing and the upsert all complete, and it carries the upsert's truth value. |
| `DocumentProcessor.IngestOk` | utils/document_processor.py:125-141 | The batch loop completes exactly when no file raises. It has then removed every temporary file, in order. |
| `DocumentProcessor.IngestNoneSelected` | utils/document_processor.py:137-138 | The batch returns no names exactly when every file was processed and every upsert returned false. |
| `DocumentProcessor.IngestSelects` | utils/document_processor.py:125-138 | The returned names are the file names, in upload order, of exactly the files whose upsert returned true. |
| `DocumentProcessor.IngestStopsAtFirstFailure` | utils/document_processor.py:125-145 | The first file that raises ends the batch with its exception, and later files are not processed. Only earlier files had their copies removed. Its own copy stays unless saving was what raised. |
| `DocumentProcessor.IngestFiles` | utils/document_processor.py:125-141 | The source's loop produces exactly what the recursive reference definition of the batch gives. |
| `DocumentProcessor.IngestLeftover` | utils/document_processor.py:125-145 | The loop leaves a copy in the temporary directory exactly when the first file that does not complete raised after its copy was saved there. |
| `DocumentProcessor.ProcessAndUpsertDocuments` | utils/document_processor.py:110-150 | The batch as written removes the directory exactly when no file left its copy in it (`InTempDir`: a relative name whose directory part is only `.` and empty components, such as `notes.rtf`, `./notes.rtf` or `.//notes.rtf`). Otherwise the caller sees `[Errno 39] Directory not empty` instead of the file's exception. When the directory was removed, the caller sees the loop's result. |
| `DocumentProcessor.EscapingUploadKeepsItsError` | utils/document_processor.py:127-148 | An upload named `../notes.rtf` is saved outside the directory. So `os.rmdir` succeeds and the `ValueError` reaches the caller even as written. |
| `DocumentProcessor.TempDirPlacement` | utils/document_processor.py:127-128 | `os.path.join(temp_dir, name)` with a plain name, `./name`, `.//name` or `././name` is an entry of the temporary directory. `/name`, `../name`, `./../name` and `sub/name` are not. |
| `DocumentProcessor.CurrentDirPrefix` | utils/document_processor.py:127-128 | Putting `./` in front of a name lands its copy inside the directory exactly when every directory component of the name is `.` or empty. |
| `DocumentProcessor.CurrentDirUploadMaskedByRmdir` | utils/document_processor.py:127-148 | A saved `./notes.rtf` lands inside the directory. As written, its `ValueError` is again replaced by `Directory not empty` and the directory stays. The corrected cleanup raises the `ValueError` and removes the directory. |
| `DocumentProcessor.ProcessAndUpsertDocumentsCleaned` | utils/document_processor.py:110-150 | The corrected batch always removes the directory. It succeeds exactly when every file is upserted, and then returns the true-upsert names in order. Otherwise it raises the first failing file's exception. |
| `DocumentProcessor.UnsupportedUploadMaskedByRmdir` | utils/document_processor.py:141-148 | A saved `notes.rtf` raises `Unsupported file type: .rtf`. As written, the caller instead gets `Directory not empty` and the directory stays. |
| `Retrieval.MatchTexts` | utils/pinecone_funcs.py:30-36 | Succeeds exactly when every match has metadata with a `text`. It then returns the texts in match order, one per match. |
| `Retrieval.RetrieveChunks` | utils/pinecone_funcs.py:13-39 | Returns `None` when the query raised, the matches are null or empty, or any match lacks `text`. Otherwise it returns the texts in order, as many as matches. It never returns an empty list. |
| `Retrieval.NamespaceIsolation` | utils/pinecone_funcs.py:19-25 | The result depends on the index only through the queried namespace. |
| `Retrieval.RetrieveBuiltChunks` | utils/pinecone_funcs.py:27-36 | When the query answers with the vectors built from non-empty chunks, retrieval returns exactly those chunks, in order. |
| `Articles.FetchIds` | utils/helpers.py:33-37 | The fetch ids are the search ids joined by commas. A missing id raises the `TypeError` that names its position. |
| `Articles.FetchIdsRoundTrip` | utils/helpers.py:37 | Splitting the fetch parameter at commas gives the search ids back, in search order, when no id holds a comma. |
| `Articles.SegmentsConcat` | utils/helpers.py:54-55 | Abstract segments succeed exactly when all are present. They are then concatenated with no separator. |
| `Articles.AbstractLabelAlways` | utils/helpers.py:50-57 | An article without `AbstractText` still gets `Abstract : `, so the "not found" branch is dead. |
| `Articles.BlockShape` | utils/helpers.py:45-59 | An article's block succeeds exactly when its title and segments are present. It is then `Article Title : <title>\n`, then `Abstract : <segments>`, then a blank line. |
| `Articles.FormatAppend` | utils/helpers.py:43-61 | The context of two article lists is the first's context followed by the second's, and it fails when either does. |
| `Articles.FormatOk` | utils/helpers.py:45-61 | The context is built exactly when every article's block is. |
| `Articles.AppendSegments` | utils/helpers.py:54-55 | The segment loop appends the concatenated segments to the context, or raises the `TypeError` of a `None` text. |
| `Articles.RetrieveArticles` | utils/helpers.py:22-64 | The source's appending loops produce the reference context. Every exception is re-raised unchanged, and with no articles the context is `""`. |
| `UploadRouter.ProcessUrlContentBackground` | routers/data_upload_router.py:31-57 | Never raises. It upserts into the user's namespace one vector per chunk, in order, each with `text` = the chunk and no `source`. |
| `UploadRouter.BackgroundAgreesWithCrawler` | routers/data_upload_router.py:40-52 | The background upsert returns true exactly when the crawler would count the same content as processed. |
| `UploadRouter.ScrapeSingleUrl` | routers/data_upload_router.py:74-96 | A non-200 answer raises `Failed to scrape url: <url>` before the URL is recorded or anything is scheduled. Success records the URL, schedules the page and answers 200. |
| `UploadRouter.ScrapeRecordsUrl` | routers/data_upload_router.py:75-80 | A successful scrape appends the URL once to that user's single-page list and changes no other list. |
| `UploadRouter.WebCrawlApi` | routers/data_upload_router.py:123-151 | Answers 200 `pending` with the new job's id and schedules the crawl. A failed job creation answers 500, schedules nothing and changes nothing. |
| `UploadRouter.GetWebCrawlStatus` | routers/data_upload_router.py:167-187 | Answers 200 with the status exactly for the job's owner. An unknown job answers 500, never 404. |
| `UploadRouter.CrawlRequestThenStatus` | routers/data_upload_router.py:125-187 | A job just requested reads `pending` for its owner. For any other user it reads as the 500 of an unknown job. |
| `UploadRouter.UploadDocuments` | routers/data_upload_router.py:258-284 | Over the batch as written: a non-empty batch leads to one documents update with exactly those names and answers 200. An empty batch answers 400 with no change. An exception answers 500 with its text and no change. A file that raised after its copy was saved inside the temporary directory answers 500 with the `rmdir` error text. |
| `UploadRouter.UploadDocumentsCleaned` | routers/data_upload_router.py:258-284 | The same endpoint over the corrected batch: the 500 answer carries the first failing file's own exception. |
| `UploadRouter.Answer` | routers/data_upload_router.py:262-284 | 200 exactly for a non-empty result whose documents update completes; 400 exactly for an empty one; 500 otherwise, with the exception text. Only a 200 changes the store. |
| `UploadRouter.UploadRecordsSelected` | routers/data_upload_router.py:260-264 | A 200 upload appends to the user's documents the upsert-true file names, in upload order. |

## Left out

- `Retrieval.RetrieveChunks`: the result count is a parameter, so the default `num_results` of 5 is not modelled separately.
- `DocumentProcessor.ProcessAndUpsertDocuments`: a copy counts as saved inside the temporary directory exactly when the name is relative and each of its directory components is `.` or empty (`InTempDir`). Any other directory component counts as outside. For a name like `sub/x` the source's save raises first, because the fresh directory has no subdirectories. A name that climbs out and back into the fresh, randomly named directory (`../tmpabc/x`) is not modelled, because the directory's random name is not part of the model.
- `Vectors.Services`: `upsert_chunks`, imported from `utils.pinecone_funcs` by the router (routers/data_upload_router.py:16), the document processor (utils/document_processor.py:16) and the crawler (utils/web_crawler.py:17), is not defined in that module, which holds only `retrieve_chunks`; as written those imports raise `ImportError`. The model treats the upsert as an oracle that returns a truth value or raises.
- Vector ids (`uuid4`) are not modelled. Job ids take the uuid as a parameter.
- `NOW()` timestamps are an opaque `now` parameter.
- Database connections are not modelled; a failing statement is a fault message that leaves the store unchanged.
- The semantic splitter's internals (embedding similarity, percentile breakpoints) are not modelled: floating point inside a foreign library. It is an uninterpreted function from windows to nodes.
- The OpenAI embedding and chat calls are oracles. `get_embeddings` returns an error value instead of raising, which is modelled.
- Selenium, the 10-second body wait, BeautifulSoup, `urljoin`, `urlparse`, PyPDF2, python-docx and ebooklib are oracles. Only the shapes of their results, and whether they raise, are modelled.
- Every oracle is deterministic per input. A page that is loaded twice is assumed to give the same result.
- The order in which `set.pop()` picks frontier URLs is arbitrary (a `:|` choice).
- `asyncio.sleep(1)` between pages, FastAPI background scheduling and concurrency between jobs are not modelled. Only the scheduled call is recorded.
- Logging is not modelled.
- `str.lower` is modelled on ASCII letters only. That is enough to compare against the four supported extensions.
- Temporary files are modelled only as "removed or left". A save that raises is assumed to leave no file behind.
- `DocumentProcessor.DirNotEmpty`: the `OSError` text omits the directory path that `str(e)` appends, and uses the Linux errno 39.
- `UploadRouter.GetWebCrawlStatus`: the detail text `404: Job not found` follows how Starlette's `HTTPException` renders itself. That rendering belongs to the framework version.
- `Articles.Block`: a missing `ArticleTitle` element raises an `AttributeError` in the source. The model gives it the same message as a `None` title text; only the fact that it raises is kept.
- `Database.CreateCrawlingJob`: requires a uuid no existing job id uses. A uuid4 collision would fail the INSERT, which is not modelled.
- `UploadRouter.WebCrawlApi`: requires depth 1..5 (validated by the request schema before the endpoint runs) and a fresh uuid.
- The `fetch_single_page_urls`, `fetch_web_crawl_urls` and `fetch_documents` endpoints are not modelled. They only wrap the readers, which are modelled.
- `start_crawling` is not modelled: it is dead code and calls `crawl_website` without its required job id.
- routers/query_router.py and the prompt text are not modelled: their behaviour depends on model output.
- The users and query-history SQL is not modelled.
- E-mail, logging setup, `main.py` and the one-off `ingestion/upsert.py` script are not modelled.

## Findings

| source | as written | input that shows it | evidently intended | confidence | as-written member | corrected member |
|---|---|---|---|---|---|---|
| utils/document_processor.py:141-148 | A file's temporary copy is removed only after its processing and upsert complete. When a later step raises, the copy stays (inside the directory when the name's directory part is only `.` and empty components), `os.rmdir` in `finally` raises `OSError` (directory not empty), and that error replaces the file's own exception. The temporary directory is left on disk. | A one-file batch `notes.rtf` that saves successfully: `process_document` raises `ValueError("Unsupported file type: .rtf")`. The caller gets `[Errno 39] Directory not empty` instead, and the directory stays. | Remove the leftover copy with the directory, so the directory is always removed and the file's own exception reaches the caller. | not executed | `DocumentProcessor.UnsupportedUploadMaskedByRmdir` | `DocumentProcessor.TempDirPlacement` | utils/document_processor.py:127-128 | `os.path.join(temp_dir, name)` with a plain name, `./name`, `.//name` or `././name` is an entry of the temporary directory. `/name`, `../name`, `./../name` and `sub/name` are not. |
| `DocumentProcessor.CurrentDirPrefix` | utils/document_processor.py:127-128 | Putting `./` in front of a name lands its copy inside the directory exactly when every directory component of the name is `.` or empty. |
| `DocumentProcessor.CurrentDirUploadMaskedByRmdir` | utils/document_processor.py:127-148 | A saved `./notes.rtf` lands inside the directory. As written, its `ValueError` is again replaced by `Directory not empty` and the directory stays. The corrected cleanup raises the `ValueError` and removes the directory. |
| `DocumentProcessor.ProcessAndUpsertDocumentsCleaned` |

=== FILE: articles.dfy ===
/** `retreive_articles`: the PubMed search, the fetch of the found ids and
    the context string built from the fetched articles, after XML parsing. */
module Articles {
  import opened Outcomes
  import opened Strings

  /** One fetched `PubmedArticle`: the text of its `ArticleTitle` and of each
      `AbstractText`, in document order; `None` where the element's text is
      `None` (or, for the title, where there is no such element). */
  datatype Article = Article(title: Option<string>, segments: seq<Option<string>>)

  /** The two HTTP round trips with their XML parsing: the search for a term
      with a result cap gives the `Id` texts, the fetch of a comma-joined id
      list gives the articles. Either may raise. */
  datatype Pubmed = Pubmed(
    search: (string, nat) -> Result<seq<Option<string>>>,
    fetch: string -> Result<seq<Article>>)

  /** The `retmax` search parameter. */
  const RetMax: nat := 10

  const TitleLabel: string := "Article Title : "
  const AbstractLabel: string := "Abstract : "

  /** The `TypeError` of appending a `None` text to the context string. */
  const ConcatNone: string := "can only concatenate str (not \"NoneType\") to str"

  /** The `TypeError` of `",".join` on a `None` at position `k`. */
  function JoinNone(k: nat): string {
    "sequence item " + Decimal(k) + ": expected str instance, NoneType found"
  }

  /** Position of the first `None`, or `|xs|` when every item is present. */
  function FirstMissing(xs: seq<Option<string>>): (k: nat)
    ensures k <= |xs|
    ensures k < |xs| ==> xs[k].None?
    ensures forall j :: 0 <= j < k ==> xs[j].Some?
  {
    if xs == [] then 0
    else if xs[0].None? then 0
    else 1 + FirstMissing(xs[1..])
  }

  predicate AllPresent(xs: seq<Option<string>>) {
    forall k :: 0 <= k < |xs| ==> xs[k].Some?
  }

  /** The present items, in order. */
  function Values(xs: seq<Option<string>>): (vs: seq<string>)
    requires AllPresent(xs)
    ensures |vs| == |xs|
    ensures forall k :: 0 <= k < |xs| ==> vs[k] == xs[k].value
  {
    if xs == [] then [] else [xs[0].value] + Values(xs[1..])
  }

  /** `",".join(uids)`: the ids joined with commas, in search order, or the
      `TypeError` naming the first missing id. */
  function FetchIds(uids: seq<Option<string>>): (r: Result<string>)
    ensures r.Ok? <==> AllPresent(uids)
    ensures r.Raised? ==>
      exists k :: 0 <= k < |uids| && uids[k].None? && (forall j :: 0 <= j < k ==> uids[j].Some?)
        && r.message == JoinNone(k)
  {
    var k := FirstMissing(uids);
    if k < |uids| then Raised(JoinNone(k)) else Ok(Join(',', Values(uids)))
  }

  /** Splitting the fetch parameter at its commas gives the search ids back,
      in order, when no id contains a comma. */
  lemma FetchIdsRoundTrip(uids: seq<Option<string>>)
    requires uids != [] && AllPresent(uids)
    requires forall k :: 0 <= k < |uids| ==> ',' !in uids[k].value
    ensures FetchIds(uids).Ok?
    ensures Split(',', FetchIds(uids).value) == Values(uids)
  {
    SplitJoin(',', Values(uids));
  }

  /** The segment loop: each `AbstractText` text appended with no separator,
      raising at the first `None`. */
  function Segments(segs: seq<Option<string>>): (r: Result<string>)
    ensures r.Raised? ==> r.message == ConcatNone
  {
    if segs == [] then Ok("")
    else
      var before :- Segments(segs[..|segs| - 1]);
      match segs[|segs| - 1]
      case None => Raised(ConcatNone)
      case Some(t) => Ok(before + t)
  }

  /** The segments succeed exactly when all are present, and then give their
      plain concatenation. */
  lemma {:induction false} SegmentsConcat(segs: seq<Option<string>>)
    ensures Segments(segs).Ok? <==> AllPresent(segs)
    ensures AllPresent(segs) ==> Segments(segs) == Ok(Concat(Values(segs)))
  {
    if segs != [] {
      var n := |segs| - 1;
      var init := segs[..n];
      SegmentsConcat(init);
      assert forall k :: 0 <= k < n ==> init[k] == segs[k];
      if AllPresent(segs) {
        assert AllPresent(init);
        var t := segs[n].value;
        assert [t][1..] == [];
        assert Concat([t]) == t + Concat([]) == t;
        assert Values(segs) == Values(init) + [t];
        ConcatAppend(Values(init), [t]);
        assert Segments(segs) == Ok(Concat(Values(init)) + t);
      }
    }
  }

  /** One article's block of the context. */
  function Block(a: Article): (r: Result<string>)
    ensures r.Raised? ==> r.message == ConcatNone
  {
    match a.title
    case None => Raised(ConcatNone)
    case Some(t) =>
      var abstractText :- Segments(a.segments);
      Ok(TitleLabel + t + "\n" + AbstractLabel + abstractText + "\n\n")
  }

  /** An article with a title but no `AbstractText` still gets the abstract
      label: `findall` gives a list, never `None`. */
  lemma AbstractLabelAlways(title: string)
    ensures Block(Article(Some(title), [])) == Ok(TitleLabel + title + "\n" + AbstractLabel + "\n\n")
  {
    assert TitleLabel + title + "\n" + AbstractLabel + "" == TitleLabel + title + "\n" + AbstractLabel;
  }

  /** A block succeeds exactly when the title and every segment are present;
      it then is the title line, the abstract line of the concatenated
      segments, and a blank line. */
  lemma BlockShape(a: Article)
    ensures Block(a).Ok? <==> a.title.Some? && AllPresent(a.segments)
    ensures Block(a).Ok? ==>
      Block(a).value == TitleLabel + a.title.value + "\n" + AbstractLabel + Concat(Values(a.segments)) + "\n\n"
  {
    SegmentsConcat(a.segments);
  }

  /** The article loop as a reference definition: the blocks in fetch order,
      or the first exception. */
  function Format(articles: seq<Article>): (r: Result<string>)
    ensures r.Raised? ==> r.message == ConcatNone
  {
    if articles == [] then Ok("")
    else
      var before :- Format(articles[..|articles| - 1]);
      var block :- Block(articles[|articles| - 1]);
      Ok(before + block)
  }

  /** Formatting distributes over concatenation of article lists. */
  lemma {:induction false} FormatAppend(a: seq<Article>, b: seq<Article>)
    ensures Format(a + b).Ok? <==> Format(a).Ok? && Format(b).Ok?
    ensures Format(a + b).Ok? ==> Format(a + b).value == Format(a).value + Format(b).value
  {
    if b == [] {
      assert a + b == a;
    } else {
      var n := |b| - 1;
      assert (a + b)[..|a + b| - 1] == a + b[..n];
      assert (a + b)[|a + b| - 1] == b[n];
      FormatAppend(a, b[..n]);
    }
  }

  /** The context succeeds exactly when every article has a title and all
      its segment texts; no articles give the empty context. */
  lemma {:induction false} FormatOk(articles: seq<Article>)
    ensures Format(articles).Ok? <==> forall k :: 0 <= k < |articles| ==> Block(articles[k]).Ok?
  {
    if articles != [] {
      var n := |articles| - 1;
      FormatOk(articles[..n]);
      assert forall k :: 0 <= k < n ==> articles[..n][k] == articles[k];
    }
  }

  /** `retreive_articles(query)` as a reference definition: any exception
      propagates unchanged. */
  function ArticlesContext(pubmed: Pubmed, query: string): Result<string> {
    var uids :- pubmed.search(query, RetMax);
    var ids :- FetchIds(uids);
    var articles :- pubmed.fetch(ids);
    Format(articles)
  }

  /** Format of the first `i + 1` articles from that of the first `i`. */
  lemma FormatStep(articles: seq<Article>, i: nat)
    requires i < |articles|
    ensures Format(articles[..i + 1]) ==
      match Format(articles[..i])
      case Raised(m) => Raised(m)
      case Ok(before) =>
        match Block(articles[i])
        case Raised(m) => Raised(m)
        case Ok(block) => Ok(before + block)
  {
    assert articles[..i + 1][..i] == articles[..i];
    assert articles[..i + 1][i] == articles[i];
  }

  /** An article prefix that raises makes the whole list raise. */
  lemma FormatPrefixRaises(articles: seq<Article>, n: nat)
    requires n <= |articles|
    requires Format(articles[..n]).Raised?
    ensures Format(articles) == Raised(ConcatNone)
  {
    FormatAppend(articles[..n], articles[n..]);
    assert articles[..n] + articles[n..] == articles;
  }

  /** The inner loop of lines 54-55: the segment texts appended to
      `context`, one by one. */
  method AppendSegments(context: string, segs: seq<Option<string>>) returns (r: Result<string>)
    ensures Segments(segs).Ok? ==> r == Ok(context + Segments(segs).value)
    ensures Segments(segs).Raised? ==> r == Raised(ConcatNone)
  {
    var acc := context;
    var j := 0;
    ghost var text := "";
    assert segs[..0] == [];
    while j < |segs|
      invariant 0 <= j <= |segs|
      invariant Segments(segs[..j]) == Ok(text)
      invariant acc == context + text
    {
      assert segs[..j + 1][..j] == segs[..j];
      assert segs[..j + 1][j] == segs[j];
      if segs[j].None? {
        SegmentsPrefixRaises(segs, j + 1);
        return Raised(ConcatNone);
      }
      acc := acc + segs[j].value;
      text := text + segs[j].value;
      j := j + 1;
    }
    assert segs[..j] == segs;
    return Ok(acc);
  }

  /** The appending loops of lines 43-61, as the source writes them. */
  method RetrieveArticles(pubmed: Pubmed, query: string) returns (r: Result<string>)
    ensures r == ArticlesContext(pubmed, query)
  {
    var uids :- pubmed.search(query, RetMax);
    var ids :- FetchIds(uids);
    var articles :- pubmed.fetch(ids);
    var context := "";
    var i := 0;
    assert articles[..0] == [];
    while i < |articles|
      invariant 0 <= i <= |articles|
      invariant Format(articles[..i]) == Ok(context)
    {
      var a := articles[i];
      FormatStep(articles, i);
      if a.title.None? {
        FormatPrefixRaises(articles, i + 1);
        return Raised(ConcatNone);
      }
      var withTitle := context + TitleLabel + a.title.value + "\n" + AbstractLabel;
      var withAbstract := AppendSegments(withTitle, a.segments);
      if withAbstract.Raised? {
        FormatPrefixRaises(articles, i + 1);
        return Raised(ConcatNone);
      }
      var segments := Segments(a.segments).value;
      assert Block(a) == Ok(TitleLabel + a.title.value + "\n" + AbstractLabel + segments + "\n\n");
      assert withAbstract.value + "\n\n" == context + (TitleLabel + a.title.value + "\n" + AbstractLabel + segments + "\n\n");
      context := withAbstract.value + "\n\n";
      i := i + 1;
    }
    assert articles[..i] == articles;
    return Ok(context);
  }

  /** A segment prefix that raises makes the whole segment list raise. */
  lemma SegmentsPrefixRaises(segs: seq<Option<string>>, n: nat)
    requires n <= |segs|
    requires Segments(segs[..n]).Raised?
    ensures Segments(segs).Raised?
  {
    SegmentsConcat(segs[..n]);
    SegmentsConcat(segs);
    var k :| 0 <= k < n && segs[..n][k].None?;
    assert segs[k].None?;
  }
}

=== FILE: chunking.dfy ===
/** `get_chunks` (utils/data_upload_utils.py): a fixed-window pre-split of
    long text, followed by one call of the semantic splitter over all the
    windows.  The splitter itself is a parameter. */
module Chunking {
  import opened Outcomes
  import Strings

  /** The hard size ceiling of one splitter submission. */
  const Ceiling: nat := 7000

  /** A node produced by the semantic splitter; only its text is used. */
  datatype Node = Node(text: string)

  /** The semantic splitter (`splitter.get_nodes_from_documents`): one
      document per window in, nodes out, or an exception. */
  type Splitter = seq<string> -> Result<seq<Node>>

  /** The windows handed to the splitter: the text itself when it is at most
      `Ceiling` long, else consecutive `Ceiling`-character slices. */
  function Windows(text: string): (ws: seq<string>)
    ensures |ws| >= 1
    ensures Strings.Concat(ws) == text
    ensures forall k :: 0 <= k < |ws| ==> |ws[k]| <= Ceiling
    ensures forall k :: 0 <= k < |ws| - 1 ==> |ws[k]| == Ceiling
    ensures |text| > Ceiling ==> forall k :: 0 <= k < |ws| ==> ws[k] != ""
    decreases |text|
  {
    if |text| <= Ceiling then [text]
    else
      var rest := Windows(text[Ceiling..]);
      assert ([text[..Ceiling]] + rest)[1..] == rest;
      [text[..Ceiling]] + rest
  }

  /** Number of windows of a non-empty text: `ceil(|text| / Ceiling)`. */
  function WindowCount(n: nat): nat {
    (n + Ceiling - 1) / Ceiling
  }

  /** The `k`-th slice `text[Ceiling*k : Ceiling*(k+1)]`, clipped at the end. */
  function Slice(text: string, k: nat): string
    requires Ceiling * k <= |text|
  {
    var hi := if Ceiling * (k + 1) <= |text| then Ceiling * (k + 1) else |text|;
    text[Ceiling * k..hi]
  }

  lemma WindowCountStep(n: nat)
    requires n > Ceiling
    ensures WindowCount(n) == WindowCount(n - Ceiling) + 1
  {
  }

  lemma SliceShift(text: string, k: nat)
    requires |text| > Ceiling && 0 < k && Ceiling * k <= |text|
    ensures Ceiling * (k - 1) <= |text[Ceiling..]|
    ensures Slice(text[Ceiling..], k - 1) == Slice(text, k)
  {
  }

  /** The recursive windowing agrees with the index formula of the source's
      `range(0, len(text), 7000)` loop. */
  lemma {:induction false} WindowsIndexed(text: string)
    requires |text| > 0
    ensures |Windows(text)| == WindowCount(|text|)
    ensures forall k :: 0 <= k < |Windows(text)| ==>
      Ceiling * k < |text| && Windows(text)[k] == Slice(text, k)
    decreases |text|
  {
    var ws := Windows(text);
    if |text| > Ceiling {
      var rest := text[Ceiling..];
      WindowsIndexed(rest);
      WindowCountStep(|text|);
      forall k | 0 <= k < |ws|
        ensures Ceiling * k < |text| && ws[k] == Slice(text, k)
      {
        if k > 0 {
          assert ws[k] == Windows(rest)[k - 1];
          SliceShift(text, k);
        }
      }
    } else {
      assert ws[0] == Slice(text, 0);
    }
  }

  /** Text of at most `Ceiling` characters, including the empty string and
      exactly `Ceiling` characters, is one window equal to the text. */
  lemma ShortTextOneWindow(text: string)
    requires |text| <= Ceiling
    ensures Windows(text) == [text]
  {
  }

  /** The pre-split loop of lines 18-23, written as the source writes it. */
  method PreSplit(text: string) returns (texts: seq<string>)
    ensures texts == Windows(text)
    ensures |text| > Ceiling ==> |texts| == WindowCount(|text|)
    ensures forall k :: 0 <= k < |texts| ==> Ceiling * k <= |text| && texts[k] == Slice(text, k)
  {
    if |text| > Ceiling {
      texts := [];
      var i := 0;
      while i < |text|
        invariant i == Ceiling * |texts|
        invariant i < |text| + Ceiling
        invariant forall k :: 0 <= k < |texts| ==> Ceiling * k < |text| && texts[k] == Slice(text, k)
        decreases |text| - i
      {
        texts := texts + [Slice(text, |texts|)];
        i := i + Ceiling;
      }
      WindowsIndexed(text);
      assert |texts| == WindowCount(|text|);
    } else {
      texts := [text];
      assert Slice(text, 0) == text;
    }
  }

  /** The node texts in node order, one per node. */
  function NodeTexts(nodes: seq<Node>): (ts: seq<string>)
    ensures |ts| == |nodes|
    ensures forall k :: 0 <= k < |nodes| ==> ts[k] == nodes[k].text
  {
    if nodes == [] then [] else NodeTexts(nodes[..|nodes| - 1]) + [nodes[|nodes| - 1].text]
  }

  /** `get_chunks(text)`: the splitter's node texts over the windows, or the
      splitter's exception, re-raised. */
  function GetChunks(split: Splitter, text: string): Result<seq<string>> {
    var nodes :- split(Windows(text));
    Ok(NodeTexts(nodes))
  }

  /** The chunks are the splitter's node texts over the windows, one per node
      and in node order; a splitter exception propagates unchanged. */
  lemma GetChunksContract(split: Splitter, text: string)
    ensures var r := GetChunks(split, text); var nodes := split(Windows(text));
      && (r.Raised? <==> nodes.Raised?)
      && (r.Raised? ==> r.message == nodes.message)
      && (r.Ok? ==> |r.value| == |nodes.value|)
      && (r.Ok? ==> forall k :: 0 <= k < |r.value| ==> r.value[k] == nodes.value[k].text)
  {
  }
}

=== FILE: database.dfy ===
/** The job table and the per-user arrays of utils/db_operations.py, as an
    in-memory store.  Each SQL statement is a pure function on the store;
    `NOW()` is the `now` parameter and the uuid4 behind a job id is the `uuid` parameter. */
module Database {
  import opened Outcomes
  import Strings

  /** An opaque timestamp. */
  type Time = nat

  /** The three statuses the crawler writes into `crawling_jobs.status`. */
  datatype JobStatus = Pending | Succeeded | Failed

  /** A row of `crawling_jobs`, keyed by `job_id`. */
  datatype JobRow = JobRow(
    userId: string,
    url: string,
    status: JobStatus,
    createdAt: Time,
    completedAt: Option<Time>,
    errorMessage: Option<string>)

  /** The columns of a `users` row this model reads and writes; an SQL NULL
      array is `None`. */
  datatype UserRow = UserRow(
    email: string,
    singlePageUrls: Option<seq<string>>,
    webCrawlUrls: Option<seq<string>>,
    documents: Option<seq<string>>)

  datatype Store = Store(jobs: map<string, JobRow>, users: map<string, UserRow>)

  /** The dictionary `get_job_status` returns. */
  datatype JobView = JobView(
    jobId: string,
    url: string,
    status: JobStatus,
    createdAt: Time,
    completedAt: Option<Time>,
    errorMessage: Option<string>)

  /** The three array columns of `users`. */
  datatype Column = SinglePageUrls | WebCrawlUrls | Documents

  const JobIdPrefix: string := "job_"

  // ----- crawling_jobs -----

  /** `create_crawling_job`: inserts a `pending` row under `"job_" + uuid`
      and returns that id.  `uuid` stands for a uuid4 no row uses yet. */
  function CreateCrawlingJob(s: Store, userId: string, url: string, uuid: string, now: Time): (r: (Store, string))
    requires JobIdPrefix + uuid !in s.jobs
    ensures Strings.StartsWith(r.1, JobIdPrefix) && r.1[|JobIdPrefix|..] == uuid
    ensures r.1 !in s.jobs && r.0.jobs.Keys == s.jobs.Keys + {r.1}
    ensures r.0.jobs[r.1] == JobRow(userId, url, Pending, now, None, None)
    ensures forall id :: id in s.jobs ==> r.0.jobs[id] == s.jobs[id]
    ensures r.0.users == s.users
  {
    var id := JobIdPrefix + uuid;
    (s.(jobs := s.jobs[id := JobRow(userId, url, Pending, now, None, None)]), id)
  }

  /** Python truthiness of the optional `error_message` argument. */
  predicate Truthy(message: Option<string>) {
    message.Some? && message.value != ""
  }

  /** `update_job_status`: sets the status and `completed_at` of the row with
      that id (whatever the new status is), and the error message only when
      the argument is truthy.  No row matches an unknown id. */
  function UpdateJobStatus(s: Store, jobId: string, status: JobStatus, message: Option<string>, now: Time): (r: Store)
    ensures r.users == s.users
    ensures r.jobs.Keys == s.jobs.Keys
    ensures forall id :: id in s.jobs && id != jobId ==> r.jobs[id] == s.jobs[id]
    ensures jobId in s.jobs ==>
      var before := s.jobs[jobId];
      var after := r.jobs[jobId];
      && after.status == status
      && after.completedAt == Some(now)
      && after.errorMessage == (if Truthy(message) then message else before.errorMessage)
      && after.userId == before.userId && after.url == before.url && after.createdAt == before.createdAt
    ensures jobId !in s.jobs ==> r == s
  {
    if jobId !in s.jobs then s
    else
      var row := s.jobs[jobId];
      var row' := if Truthy(message)
        then row.(status := status, errorMessage := message, completedAt := Some(now))
        else row.(status := status, completedAt := Some(now));
      s.(jobs := s.jobs[jobId := row'])
  }

  /** `get_job_status`: the row's view when a row matches both the job id and
      the user id, else `None`. */
  function GetJobStatus(s: Store, jobId: string, userId: string): (r: Option<JobView>)
    ensures r.Some? <==> jobId in s.jobs && s.jobs[jobId].userId == userId
    ensures r.Some? ==>
      var row := s.jobs[jobId];
      r.value == JobView(jobId, row.url, row.status, row.createdAt, row.completedAt, row.errorMessage)
  {
    if jobId in s.jobs && s.jobs[jobId].userId == userId then
      var row := s.jobs[jobId];
      Some(JobView(jobId, row.url, row.status, row.createdAt, row.completedAt, row.errorMessage))
    else None
  }

  /** A freshly created job reads back as `pending`, with no completion time
      and no error, for its owner only. */
  lemma CreatedJobReadsPending(s: Store, userId: string, url: string, uuid: string, now: Time, reader: string)
    requires JobIdPrefix + uuid !in s.jobs
    ensures var (s', id) := CreateCrawlingJob(s, userId, url, uuid, now);
      GetJobStatus(s', id, reader) == if reader == userId then Some(JobView(id, url, Pending, now, None, None)) else None
  {
  }

  /** After a status update the job reads back with the new status. */
  lemma UpdatedJobReadsStatus(s: Store, jobId: string, status: JobStatus, message: Option<string>, now: Time)
    requires jobId in s.jobs
    ensures var v := GetJobStatus(UpdateJobStatus(s, jobId, status, message, now), jobId, s.jobs[jobId].userId);
      v.Some? && v.value.status == status && v.value.completedAt == Some(now)
  {
  }

  // ----- users arrays -----

  function ColumnOf(row: UserRow, c: Column): Option<seq<string>> {
    match c
    case SinglePageUrls => row.singlePageUrls
    case WebCrawlUrls => row.webCrawlUrls
    case Documents => row.documents
  }

  function WithColumn(row: UserRow, c: Column, a: Option<seq<string>>): UserRow {
    match c
    case SinglePageUrls => row.(singlePageUrls := a)
    case WebCrawlUrls => row.(webCrawlUrls := a)
    case Documents => row.(documents := a)
  }

  /** `array_cat(column, xs)` (and `array_append`, for one element) in
      `UPDATE users ... WHERE user_id = %s`: a NULL array is treated as empty. */
  function AppendColumn(s: Store, userId: string, c: Column, xs: seq<string>): (r: Store)
    ensures r.jobs == s.jobs
    ensures r.users.Keys == s.users.Keys
    ensures forall u :: u in s.users && u != userId ==> r.users[u] == s.users[u]
    ensures userId in s.users ==>
      && ColumnOf(r.users[userId], c) == Some(ColumnOf(s.users[userId], c).GetOr([]) + xs)
      && (forall c' :: c' != c ==> ColumnOf(r.users[userId], c') == ColumnOf(s.users[userId], c'))
      && r.users[userId].email == s.users[userId].email
  {
    if userId !in s.users then s
    else
      var row := s.users[userId];
      s.(users := s.users[userId := WithColumn(row, c, Some(ColumnOf(row, c).GetOr([]) + xs))])
  }

  /** `result[0] if result and result[0] else []`. */
  function ReadColumn(s: Store, userId: string, c: Column): seq<string> {
    if userId in s.users && ColumnOf(s.users[userId], c).Some? then ColumnOf(s.users[userId], c).value else []
  }

  /** Appending and then reading gives the old contents followed by the new
      elements, for an existing user; the other columns and users read the
      same; a missing user still reads `[]`. */
  lemma ReadAfterAppend(s: Store, userId: string, c: Column, xs: seq<string>, u: string, c': Column)
    ensures ReadColumn(AppendColumn(s, userId, c, xs), u, c') ==
      if u == userId && c' == c && userId in s.users then ReadColumn(s, u, c') + xs
      else ReadColumn(s, u, c')
  {
  }

  function UpdateSinglePageUrls(s: Store, userId: string, url: string): (r: Store)
    ensures r.jobs == s.jobs && r.users.Keys == s.users.Keys
    ensures GetSinglePageUrls(r, userId) ==
      if userId in s.users then GetSinglePageUrls(s, userId) + [url] else []
    ensures forall u :: u != userId ==> GetSinglePageUrls(r, u) == GetSinglePageUrls(s, u)
    ensures forall u :: GetWebCrawlUrls(r, u) == GetWebCrawlUrls(s, u) && GetUserDocuments(r, u) == GetUserDocuments(s, u)
  {
    AppendColumn(s, userId, SinglePageUrls, [url])
  }

  function UpdateWebCrawlUrls(s: Store, userId: string, url: string): (r: Store)
    ensures r.jobs == s.jobs && r.users.Keys == s.users.Keys
    ensures GetWebCrawlUrls(r, userId) ==
      if userId in s.users then GetWebCrawlUrls(s, userId) + [url] else []
    ensures forall u :: u != userId ==> GetWebCrawlUrls(r, u) == GetWebCrawlUrls(s, u)
    ensures forall u :: GetSinglePageUrls(r, u) == GetSinglePageUrls(s, u) && GetUserDocuments(r, u) == GetUserDocuments(s, u)
  {
    AppendColumn(s, userId, WebCrawlUrls, [url])
  }

  function UpdateUserDocuments(s: Store, userId: string, names: seq<string>): (r: Store)
    ensures r.jobs == s.jobs && r.users.Keys == s.users.Keys
    ensures GetUserDocuments(r, userId) ==
      if userId in s.users then GetUserDocuments(s, userId) + names else []
    ensures forall u :: u != userId ==> GetUserDocuments(r, u) == GetUserDocuments(s, u)
    ensures forall u :: GetSinglePageUrls(r, u) == GetSinglePageUrls(s, u) && GetWebCrawlUrls(r, u) == GetWebCrawlUrls(s, u)
  {
    AppendColumn(s, userId, Documents, names)
  }

  function GetSinglePageUrls(s: Store, userId: string): (r: seq<string>)
    ensures userId !in s.users ==> r == []
    ensures userId in s.users ==> r == s.users[userId].singlePageUrls.GetOr([])
  {
    ReadColumn(s, userId, SinglePageUrls)
  }

  function GetWebCrawlUrls(s: Store, userId: string): (r: seq<string>)
    ensures userId !in s.users ==> r == []
    ensures userId in s.users ==> r == s.users[userId].webCrawlUrls.GetOr([])
  {
    ReadColumn(s, userId, WebCrawlUrls)
  }

  function GetUserDocuments(s: Store, userId: string): (r: seq<string>)
    ensures userId !in s.users ==> r == []
    ensures userId in s.users ==> r == s.users[userId].documents.GetOr([])
  {
    ReadColumn(s, userId, Documents)
  }

  // ----- existence checks -----

  /** `SELECT COUNT(*) FROM users WHERE user_id = %s`. */
  function CountUsersWithId(s: Store, userId: string): nat {
    |set u | u in s.users && u == userId|
  }

  /** `SELECT COUNT(*) FROM users WHERE email = %s`. */
  function CountUsersWithEmail(s: Store, email: string): nat {
    |set u | u in s.users && s.users[u].email == email|
  }

  function CheckUserExists(s: Store, userId: string): (r: bool)
    ensures r <==> userId in s.users
  {
    var matching := set u | u in s.users && u == userId;
    assert userId in s.users ==> userId in matching;
    CountUsersWithId(s, userId) > 0
  }

  function CheckEmailExists(s: Store, email: string): (r: bool)
    ensures r <==> exists u :: u in s.users && s.users[u].email == email
  {
    var matching := set u | u in s.users && s.users[u].email == email;
    assert forall u :: u in s.users && s.users[u].email == email ==> u in matching;
    CountUsersWithEmail(s, email) > 0
  }
}

=== FILE: document_processor.dfy ===
/** utils/document_processor.py: extension dispatch, the four extractors'
    output shape, vector construction and the upload batch with its
    temporary files.  The format libraries are parameters. */
module DocumentProcessor {
  import opened Outcomes
  import Strings
  import Chunking
  import opened Vectors

  // ----- os.path.splitext and the extension -----

  /** Index of the last occurrence of `c` in `s`, or -1. */
  function LastIndexOf(s: string, c: char): (i: int)
    ensures -1 <= i < |s|
    ensures i >= 0 ==> s[i] == c
    ensures forall j :: i < j < |s| ==> s[j] != c
  {
    if s == [] then -1
    else if s[|s| - 1] == c then |s| - 1
    else LastIndexOf(s[..|s| - 1], c)
  }

  /** Some character of `p[lo..hi]` is not a dot. */
  predicate HasNonDot(p: string, lo: int, hi: int)
    requires 0 <= lo && hi <= |p|
  {
    exists j :: lo <= j < hi && p[j] != '.'
  }

  /** `posixpath.splitext(p)`: the extension runs from the last dot of the
      base name, unless everything before that dot in the base name is dots. */
  function SplitExt(p: string): (r: (string, string))
    ensures r.0 + r.1 == p
    ensures r.1 != "" ==> r.1[0] == '.' && '/' !in r.1 && '.' !in r.1[1..]
  {
    var sep := LastIndexOf(p, '/');
    var dot := LastIndexOf(p, '.');
    if dot > sep && HasNonDot(p, sep + 1, dot) then
      assert forall j :: dot < j < |p| ==> p[j] != '/' && p[j] != '.';
      (p[..dot], p[dot..])
    else (p, "")
  }

  /** `os.path.splitext(file_name)[1].lower()`. */
  function Extension(name: string): string {
    Strings.Lower(SplitExt(name).1)
  }

  lemma LastIndexOfLower(s: string, c: char)
    requires !('A' <= c <= 'Z') && !('a' <= c <= 'z')
    ensures LastIndexOf(Strings.Lower(s), c) == LastIndexOf(s, c)
  {
    var l := Strings.Lower(s);
    var i, k := LastIndexOf(s, c), LastIndexOf(l, c);
    assert forall j :: 0 <= j < |s| ==> (l[j] == c <==> s[j] == c);
  }

  lemma LowerSuffix(s: string, i: nat)
    requires i <= |s|
    ensures Strings.Lower(s[i..]) == Strings.Lower(s)[i..]
  {
  }

  /** Lower-casing keeps which characters are dots. */
  lemma HasNonDotLower(s: string, lo: int, hi: int)
    requires 0 <= lo && hi <= |s|
    ensures HasNonDot(Strings.Lower(s), lo, hi) <==> HasNonDot(s, lo, hi)
  {
    var l := Strings.Lower(s);
    if HasNonDot(s, lo, hi) {
      var j :| lo <= j < hi && s[j] != '.';
      assert l[j] != '.';
    }
    if HasNonDot(l, lo, hi) {
      var j :| lo <= j < hi && l[j] != '.';
      assert s[j] != '.';
    }
  }

  /** The extension `SplitExt` picks, in terms of the last slash and dot. */
  lemma SplitExtShape(p: string)
    ensures var sep := LastIndexOf(p, '/'); var dot := LastIndexOf(p, '.');
      SplitExt(p).1 == if dot > sep && HasNonDot(p, sep + 1, dot) then p[dot..] else ""
  {
  }

  /** Lower-casing commutes with the split: the extension of the lower-cased
      name is the lower-cased extension. */
  lemma ExtensionOfLower(name: string)
    ensures SplitExt(Strings.Lower(name)).1 == Extension(name)
  {
    var l := Strings.Lower(name);
    LastIndexOfLower(name, '/');
    LastIndexOfLower(name, '.');
    SplitExtShape(name);
    SplitExtShape(l);
    var sep := LastIndexOf(name, '/');
    var dot := LastIndexOf(name, '.');
    if dot > sep {
      HasNonDotLower(name, sep + 1, dot);
      LowerSuffix(name, dot);
    }
  }

  /** Extension matching ignores ASCII case: names equal up to case select
      the same extension. */
  lemma ExtensionIgnoresCase(a: string, b: string)
    requires Strings.Lower(a) == Strings.Lower(b)
    ensures Extension(a) == Extension(b)
  {
    ExtensionOfLower(a);
    ExtensionOfLower(b);
  }

  // ----- dispatch -----

  datatype Format = Pdf | Docx | Epub | Txt

  /** The `if/elif` chain of lines 80-89. */
  function FormatOf(ext: string): (r: Result<Format>)
    ensures r.Raised? ==> r.message == "Unsupported file type: " + ext
    ensures r == Ok(Pdf) <==> ext == ".pdf"
    ensures r == Ok(Docx) <==> ext == ".docx"
    ensures r == Ok(Epub) <==> ext == ".epub"
    ensures r == Ok(Txt) <==> ext == ".txt"
  {
    if ext == ".pdf" then Ok(Pdf)
    else if ext == ".docx" then Ok(Docx)
    else if ext == ".epub" then Ok(Epub)
    else if ext == ".txt" then Ok(Txt)
    else Raised("Unsupported file type: " + ext)
  }

  // ----- extractors -----

  /** An EPUB item: whether it is an `ITEM_DOCUMENT`, and the text
      BeautifulSoup gets from its content. */
  datatype EpubItem = EpubItem(isDocument: bool, text: string)

  /** The format libraries, reading the bytes of the saved file: PyPDF2's
      page texts, python-docx's paragraph texts, ebooklib's items, and the
      UTF-8 read of a text file.  Each may raise. */
  datatype Readers = Readers(
    pdfPages: seq<bv8> -> Result<seq<string>>,
    docxParagraphs: seq<bv8> -> Result<seq<string>>,
    epubItems: seq<bv8> -> Result<seq<EpubItem>>,
    utf8: seq<bv8> -> Result<string>)

  /** The texts of the document items, in book order. */
  function DocumentTexts(items: seq<EpubItem>): (ts: seq<string>)
    ensures |ts| <= |items|
    ensures forall t :: t in ts ==> exists k :: 0 <= k < |items| && items[k].isDocument && items[k].text == t
    ensures forall k :: 0 <= k < |items| && items[k].isDocument ==> items[k].text in ts
  {
    if items == [] then []
    else
      var rest := DocumentTexts(items[1..]);
      assert forall k :: 1 <= k < |items| ==> items[k] == items[1..][k - 1];
      (if items[0].isDocument then [items[0].text] else []) + rest
  }

  /** Item order is kept: the document texts of two runs of items, one after
      the other, are those of the first run followed by those of the second. */
  lemma {:induction false} DocumentTextsAppend(a: seq<EpubItem>, b: seq<EpubItem>)
    ensures DocumentTexts(a + b) == DocumentTexts(a) + DocumentTexts(b)
  {
    if a != [] {
      assert (a + b)[1..] == a[1..] + b;
      DocumentTextsAppend(a[1..], b);
    } else {
      assert a + b == b;
    }
  }

  /** The units an extractor concatenates, or the library's exception. */
  function Units(readers: Readers, format: Format, content: seq<bv8>): Result<seq<string>>
    requires format != Txt
  {
    match format
    case Pdf => readers.pdfPages(content)
    case Docx => readers.docxParagraphs(content)
    case Epub =>
      var items :- readers.epubItems(content);
      Ok(DocumentTexts(items))
  }

  /** `extract_text_from_{pdf,docx,epub,txt}`: for PDF, DOCX and EPUB the
      units' lines, each unit followed by one newline, in document order. */
  function ExtractText(readers: Readers, format: Format, content: seq<bv8>): (r: Result<string>)
    ensures format == Txt ==> r == readers.utf8(content)
    ensures format != Txt ==> (r.Raised? <==> Units(readers, format, content).Raised?)
    ensures format != Txt && r.Raised? ==> r.message == Units(readers, format, content).message
    ensures format != Txt && r.Ok? ==>
      r.value == Strings.Concat(Strings.WithNewlines(Units(readers, format, content).value))
    ensures format != Txt && r.Ok? ==>
      |r.value| == Strings.TotalLength(Units(readers, format, content).value) + |Units(readers, format, content).value|
  {
    if format == Txt then readers.utf8(content)
    else
      var units :- Units(readers, format, content);
      Strings.TerminatedLength(units);
      Strings.TerminatedIsConcat(units);
      Ok(Strings.Terminated(units))
  }

  /** The extractors' `text += unit + "\n"` loop (lines 21-26, 35-38 and
      47-52), as the source writes it. */
  method AppendUnits(units: seq<string>) returns (text: string)
    ensures text == Strings.Concat(Strings.WithNewlines(units))
  {
    text := "";
    var i := 0;
    while i < |units|
      invariant 0 <= i <= |units|
      invariant text == Strings.Terminated(units[..i])
    {
      assert units[..i + 1] == units[..i] + [units[i]];
      Strings.TerminatedAppend(units[..i], [units[i]]);
      assert Strings.Terminated([units[i]]) == units[i] + "\n" + Strings.Terminated([]);
      text := text + units[i] + "\n";
      i := i + 1;
    }
    assert units[..i] == units;
    Strings.TerminatedIsConcat(units);
  }

  /** Every unit is followed by exactly one newline, so the units can be read
      back from the extracted text when none of them holds a newline. */
  lemma ExtractedUnitsRecoverable(readers: Readers, format: Format, content: seq<bv8>)
    requires format != Txt
    requires ExtractText(readers, format, content).Ok?
    requires var us := Units(readers, format, content).value;
      forall k :: 0 <= k < |us| ==> '\n' !in us[k]
    ensures Strings.SplitTerminated(ExtractText(readers, format, content).value) == Units(readers, format, content).value
  {
    Strings.SplitTerminatedRoundTrip(Units(readers, format, content).value);
  }

  // ----- process_document -----

  /** An uploaded file: its name and its bytes. */
  datatype Upload = Upload(filename: string, content: seq<bv8>)

  /** `process_document`: the extracted text and one vector per chunk with
      `{text: chunk, source: file_name}`. */
  function ProcessDocument(readers: Readers, svc: Services, f: Upload): Result<(string, seq<Vector>)>
  {
    var format :- FormatOf(Extension(f.filename));
    var text :- ExtractText(readers, format, f.content);
    var chunks :- Chunking.GetChunks(svc.split, text);
    Ok((text, BuildVectors(svc.embed, chunks, Some(f.filename))))
  }

  /** An unsupported extension raises its `ValueError`; otherwise the text is
      what the format's extractor gives and there is one vector per chunk of
      it, in order, carrying the chunk and the file name. */
  lemma ProcessDocumentContract(readers: Readers, svc: Services, f: Upload)
    ensures var r := ProcessDocument(readers, svc, f);
      FormatOf(Extension(f.filename)).Raised? ==>
        r == Raised("Unsupported file type: " + Extension(f.filename))
    ensures var r := ProcessDocument(readers, svc, f);
      r.Ok? ==>
        var text := ExtractText(readers, FormatOf(Extension(f.filename)).value, f.content);
        var chunks := Chunking.GetChunks(svc.split, r.value.0);
        && text == Ok(r.value.0)
        && chunks.Ok?
        && |r.value.1| == |chunks.value|
        && forall k :: 0 <= k < |chunks.value| ==>
             r.value.1[k].metadata == Metadata(chunks.value[k], Some(f.filename))
    // a supported file whose extractor and splitter complete is processed
    ensures var r := ProcessDocument(readers, svc, f); var format := FormatOf(Extension(f.filename));
      format.Ok? && ExtractText(readers, format.value, f.content).Ok?
        && Chunking.GetChunks(svc.split, ExtractText(readers, format.value, f.content).value).Ok?
      ==> r.Ok? && r.value.0 == ExtractText(readers, format.value, f.content).value
    // an extractor or splitter error propagates with its own message
    ensures var r := ProcessDocument(readers, svc, f); var format := FormatOf(Extension(f.filename));
      format.Ok? && ExtractText(readers, format.value, f.content).Raised? ==>
        r == Raised(ExtractText(readers, format.value, f.content).message)
    ensures var r := ProcessDocument(readers, svc, f); var format := FormatOf(Extension(f.filename));
      format.Ok? && ExtractText(readers, format.value, f.content).Ok?
        && Chunking.GetChunks(svc.split, ExtractText(readers, format.value, f.content).value).Raised? ==>
        r == Raised(Chunking.GetChunks(svc.split, ExtractText(readers, format.value, f.content).value).message)
  {
  }

  // ----- process_and_upsert_documents -----

  /** The services of an upload batch; `save` is the exception, if any, of
      writing the uploaded bytes to the temporary path (no file is left then). */
  datatype IngestEnv = IngestEnv(readers: Readers, svc: Services, save: Upload -> Option<string>)

  /** How one file of the batch ends: saving its temporary copy raised,
      processing or the upsert raised after the copy was saved, or the upsert
      returned its truth value. */
  datatype FileStep = SaveRaised(message: string) | ProcessRaised(message: string) | Upserted(ok: bool)

  /** One file: save, `process_document`, `upsert_chunks`. */
  function FileStepOf(env: IngestEnv, userId: string, f: Upload): FileStep
  {
    if env.save(f).Some? then SaveRaised(env.save(f).value)
    else match ProcessDocument(env.readers, env.svc, f)
      case Raised(m) => ProcessRaised(m)
      case Ok((_, vectors)) =>
        match env.svc.upsert(vectors, userId)
        case Raised(m) => ProcessRaised(m)
        case Ok(b) => Upserted(b)
  }

  /** How each file of a batch for `userId` ends. */
  function StepOf(env: IngestEnv, userId: string): Upload -> FileStep {
    f => FileStepOf(env, userId, f)
  }

  /** A file is upserted exactly when saving and processing it succeed; the
      step then carries the upsert's truth value. */
  lemma FileStepOfContract(env: IngestEnv, userId: string, f: Upload)
    ensures FileStepOf(env, userId, f).SaveRaised? <==> env.save(f).Some?
    ensures FileStepOf(env, userId, f).Upserted? <==>
      && env.save(f).None?
      && ProcessDocument(env.readers, env.svc, f).Ok?
      && env.svc.upsert(ProcessDocument(env.readers, env.svc, f).value.1, userId).Ok?
    ensures FileStepOf(env, userId, f).Upserted? ==>
      env.svc.upsert(ProcessDocument(env.readers, env.svc, f).value.1, userId) == Ok(FileStepOf(env, userId, f).ok)
  {
  }

  /** What the `for` loop leaves: the names it returns (or the exception that
      ended it), the temporary files it removed, and the name of the file
      that raised after being saved, whose copy was not removed. */
  datatype LoopOut = LoopOut(result: Result<seq<string>>, removed: seq<string>, leftover: Option<string>)

  /** `out` after files whose names and removals came first. */
  function Prepend(names: seq<string>, removed: seq<string>, out: LoopOut): LoopOut {
    LoopOut(
      match out.result { case Ok(ns) => Ok(names + ns) case Raised(m) => Raised(m) },
      removed + out.removed,
      out.leftover)
  }

  /** The batch loop over `files` for any per-file behaviour `step`, as a
      reference definition. */
  function Ingest(step: Upload -> FileStep, files: seq<Upload>): LoopOut {
    if files == [] then LoopOut(Ok([]), [], None)
    else
      var f := files[0];
      match step(f)
      case SaveRaised(m) => LoopOut(Raised(m), [], None)
      case ProcessRaised(m) => LoopOut(Raised(m), [], Some(f.filename))
      case Upserted(b) => Prepend(if b then [f.filename] else [], [f.filename], Ingest(step, files[1..]))
  }

  lemma PrependPrepend(n1: seq<string>, r1: seq<string>, n2: seq<string>, r2: seq<string>, out: LoopOut)
    ensures Prepend(n1, r1, Prepend(n2, r2, out)) == Prepend(n1 + n2, r1 + r2, out)
  {
    assert r1 + (r2 + out.removed) == (r1 + r2) + out.removed;
    if out.result.Ok? {
      assert n1 + (n2 + out.result.value) == (n1 + n2) + out.result.value;
    }
  }

  function Names(files: seq<Upload>): (ns: seq<string>)
    ensures |ns| == |files|
    ensures forall k :: 0 <= k < |files| ==> ns[k] == files[k].filename
  {
    if files == [] then [] else [files[0].filename] + Names(files[1..])
  }

  /** The batch succeeds exactly when no file raises; it has then removed
      every temporary file. */
  lemma {:induction false} IngestOk(step: Upload -> FileStep, files: seq<Upload>)
    ensures Ingest(step, files).result.Ok? <==> forall k :: 0 <= k < |files| ==> step(files[k]).Upserted?
    ensures Ingest(step, files).result.Ok? ==>
      Ingest(step, files).removed == Names(files) && Ingest(step, files).leftover.None?
  {
    if files != [] {
      IngestOk(step, files[1..]);
      assert forall k :: 1 <= k < |files| ==> files[k] == files[1..][k - 1];
    }
  }

  /** The batch returns no names exactly when every file was processed and
      every upsert returned false. */
  lemma {:induction false} IngestNoneSelected(step: Upload -> FileStep, files: seq<Upload>)
    ensures Ingest(step, files).result == Ok([]) <==>
      forall k :: 0 <= k < |files| ==> step(files[k]) == Upserted(false)
  {
    if files != [] {
      var tail := files[1..];
      IngestNoneSelected(step, tail);
      assert forall k :: 1 <= k < |files| ==> files[k] == tail[k - 1];
      if step(files[0]).Upserted? {
        var rest := Ingest(step, tail);
        var names := if step(files[0]).ok then [files[0].filename] else [];
        assert Ingest(step, files) == Prepend(names, [files[0].filename], rest);
        if rest.result.Ok? {
          assert |names + rest.result.value| == |names| + |rest.result.value|;
        }
      }
    }
  }

  /** `names` picks, in input order, exactly the files whose upsert returned
      true: `idx` lists their strictly increasing positions. */
  ghost predicate SelectedInOrder(step: Upload -> FileStep, files: seq<Upload>, names: seq<string>, idx: seq<nat>) {
    && |idx| == |names|
    && (forall j :: 0 <= j < |idx| ==> idx[j] < |files| && names[j] == files[idx[j]].filename)
    && (forall j, j' :: 0 <= j < j' < |idx| ==> idx[j] < idx[j'])
    && (forall k :: 0 <= k < |files| ==> (step(files[k]) == Upserted(true) <==> k in idx))
  }

  function Shift(idx: seq<nat>): (r: seq<nat>)
    ensures |r| == |idx| && forall j :: 0 <= j < |idx| ==> r[j] == idx[j] + 1
  {
    if idx == [] then [] else [idx[0] + 1] + Shift(idx[1..])
  }

  /** A successful batch returns the subsequence of file names, in input
      order, whose upsert returned true. */
  lemma {:induction false} IngestSelects(step: Upload -> FileStep, files: seq<Upload>)
    requires Ingest(step, files).result.Ok?
    ensures exists idx :: SelectedInOrder(step, files, Ingest(step, files).result.value, idx)
  {
    if files == [] {
      assert SelectedInOrder(step, files, [], []);
    } else {
      var f := files[0];
      var tail := files[1..];
      var b := step(f).ok;
      IngestSelects(step, tail);
      var rest := Ingest(step, tail).result.value;
      var idx :| SelectedInOrder(step, tail, rest, idx);
      SelectedCons(step, files, rest, idx);
      assert (if b then [f.filename] else []) + rest == Ingest(step, files).result.value;
    }
  }

  /** Extending a selection by one file in front shifts the positions. */
  lemma SelectedCons(step: Upload -> FileStep, files: seq<Upload>, rest: seq<string>, idx: seq<nat>)
    requires files != [] && step(files[0]).Upserted?
    requires SelectedInOrder(step, files[1..], rest, idx)
    ensures var b := step(files[0]).ok;
      SelectedInOrder(step, files, (if b then [files[0].filename] else []) + rest, if b then [0] + Shift(idx) else Shift(idx))
  {
    var sh := Shift(idx);
    ShiftedSelection(step, files, rest, idx);
    ShiftedMembership(step, files, rest, idx);
    ShiftMember(idx, 0);
    assert 0 !in sh;
    if step(files[0]).ok {
      SelectedKeep(step, files, rest, sh);
    } else {
      assert SelectedInOrder(step, files, [] + rest, sh);
    }
  }

  /** Shifting keeps exactly the successors of the positions. */
  lemma ShiftMember(idx: seq<nat>, k: nat)
    ensures k + 1 in Shift(idx) <==> k in idx
    ensures 0 !in Shift(idx)
  {
    var sh := Shift(idx);
    if k in idx {
      var j :| 0 <= j < |idx| && idx[j] == k;
      assert sh[j] == k + 1;
    }
    if k + 1 in sh {
      var j :| 0 <= j < |sh| && sh[j] == k + 1;
      assert idx[j] == k;
    }
  }

  /** The selection of `files[1..]`, as positions in `files`. */
  lemma ShiftedSelection(step: Upload -> FileStep, files: seq<Upload>, rest: seq<string>, idx: seq<nat>)
    requires files != []
    requires SelectedInOrder(step, files[1..], rest, idx)
    ensures var sh := Shift(idx);
      && (forall j :: 0 <= j < |sh| ==> sh[j] < |files| && rest[j] == files[sh[j]].filename)
      && (forall j, j' :: 0 <= j < j' < |sh| ==> sh[j] < sh[j'])
  {
    var tail := files[1..];
    var sh := Shift(idx);
    forall j | 0 <= j < |sh|
      ensures sh[j] < |files| && rest[j] == files[sh[j]].filename
    {
      assert files[sh[j]] == tail[idx[j]];
    }
  }

  /** Membership in the shifted selection, position by position. */
  lemma ShiftedMembership(step: Upload -> FileStep, files: seq<Upload>, rest: seq<string>, idx: seq<nat>)
    requires files != []
    requires SelectedInOrder(step, files[1..], rest, idx)
    ensures forall k :: 1 <= k < |files| ==> (step(files[k]) == Upserted(true) <==> k in Shift(idx))
  {
    var tail := files[1..];
    forall k | 1 <= k < |files|
      ensures step(files[k]) == Upserted(true) <==> k in Shift(idx)
    {
      assert files[k] == tail[k - 1];
      ShiftMember(idx, k - 1);
    }
  }

  /** The front file was selected: position 0 goes in front of the others. */
  lemma SelectedKeep(step: Upload -> FileStep, files: seq<Upload>, rest: seq<string>, sh: seq<nat>)
    requires files != [] && step(files[0]) == Upserted(true)
    requires |sh| == |rest| && 0 !in sh
    requires forall j :: 0 <= j < |sh| ==> sh[j] < |files| && rest[j] == files[sh[j]].filename
    requires forall j, j' :: 0 <= j < j' < |sh| ==> sh[j] < sh[j']
    requires forall k :: 1 <= k < |files| ==> (step(files[k]) == Upserted(true) <==> k in sh)
    ensures SelectedInOrder(step, files, [files[0].filename] + rest, [0] + sh)
  {
    var idx' := [0] + sh;
    var names := [files[0].filename] + rest;
    assert forall j :: 1 <= j < |idx'| ==> idx'[j] == sh[j - 1] && names[j] == rest[j - 1];
    assert forall k :: 0 <= k < |files| ==> (k in idx' <==> k == 0 || k in sh);
  }

  /** A failing batch stops at the first file that raises: the files before
      it were processed and their temporary copies removed, its exception is
      the batch's, and its copy stays unless saving it was what raised. */
  lemma {:induction false} IngestStopsAtFirstFailure(step: Upload -> FileStep, files: seq<Upload>)
    requires Ingest(step, files).result.Raised?
    ensures exists k :: FirstFailure(step, files, k, Ingest(step, files))
  {
    var f := files[0];
    if !step(f).Upserted? {
      assert files[..0] == [];
      assert FirstFailure(step, files, 0, Ingest(step, files));
    } else {
      var tail := files[1..];
      IngestStopsAtFirstFailure(step, tail);
      var k :| FirstFailure(step, tail, k, Ingest(step, tail));
      assert files[k + 1] == tail[k];
      assert forall j :: 1 <= j < k + 1 ==> files[j] == tail[j - 1];
      assert files[..k + 1] == [f] + tail[..k];
      assert Names(files[..k + 1]) == [f.filename] + Names(tail[..k]);
      assert FirstFailure(step, files, k + 1, Ingest(step, files));
    }
  }

  /** File `k` is the first that raised and `out` is what the loop left. */
  ghost predicate FirstFailure(step: Upload -> FileStep, files: seq<Upload>, k: int, out: LoopOut) {
    && 0 <= k < |files|
    && (forall j :: 0 <= j < k ==> step(files[j]).Upserted?)
    && !step(files[k]).Upserted?
    && out.result == Raised(step(files[k]).message)
    && out.removed == Names(files[..k])
    && out.leftover == (if step(files[k]).SaveRaised? then None else Some(files[k].filename))
  }

  lemma PrependNothing(out: LoopOut)
    ensures Prepend([], [], out) == out
  {
    assert [] + out.removed == out.removed;
    if out.result.Ok? {
      assert [] + out.result.value == out.result.value;
    }
  }

  /** One turn of the loop at position `i`. */
  lemma IngestAt(step: Upload -> FileStep, files: seq<Upload>, i: nat)
    requires i < |files|
    ensures var f := files[i];
      Ingest(step, files[i..]) == match step(f)
        case SaveRaised(m) => LoopOut(Raised(m), [], None)
        case ProcessRaised(m) => LoopOut(Raised(m), [], Some(f.filename))
        case Upserted(b) => Prepend(if b then [f.filename] else [], [f.filename], Ingest(step, files[i + 1..]))
  {
    assert files[i..][1..] == files[i + 1..];
  }

  /** The `for file in files` loop of lines 125-141, as the source writes it. */
  method IngestFiles(env: IngestEnv, userId: string, files: seq<Upload>) returns (out: LoopOut)
    ensures out == Ingest(StepOf(env, userId), files)
  {
    var step := StepOf(env, userId);
    var processed: seq<string> := [];
    var removed: seq<string> := [];
    var i := 0;
    assert files[0..] == files;
    PrependNothing(Ingest(step, files));
    while i < |files|
      invariant 0 <= i <= |files|
      invariant Prepend(processed, removed, Ingest(step, files[i..])) == Ingest(step, files)
    {
      var f := files[i];
      var st := FileStepOf(env, userId, f);
      assert step(f) == st;
      IngestAt(step, files, i);
      if st.SaveRaised? {
        assert removed + [] == removed;
        return LoopOut(Raised(st.message), removed, None);
      }
      if st.ProcessRaised? {
        assert removed + [] == removed;
        return LoopOut(Raised(st.message), removed, Some(f.filename));
      }
      var added := if st.ok then [f.filename] else [];
      PrependPrepend(processed, removed, added, [f.filename], Ingest(step, files[i + 1..]));
      processed := processed + added;
      removed := removed + [f.filename];
      i := i + 1;
    }
    assert files[i..] == [];
    assert processed + [] == processed && removed + [] == removed;
    return LoopOut(Ok(processed), removed, None);
  }

  /** The batch as the caller sees it, after the `finally` clause. */
  datatype BatchRun = BatchRun(result: Result<seq<string>>, dirRemoved: bool)

  /** The text of the `OSError` `os.rmdir` raises on a non-empty directory. */
  const DirNotEmpty: string := "[Errno 39] Directory not empty"

  /** Whether `os.path.join(temp_dir, name)` is an entry of the fresh
      temporary directory. An absolute name replaces the directory, and a
      `..` component climbs out of it, so the copy is written elsewhere.
      `.` and empty components stay where they are, so `./x` and `.//x`
      land inside. Any other component names a subdirectory the fresh
      directory does not hold; the save itself then raises. */
  predicate InTempDir(name: string) {
    (|name| == 0 || name[0] != '/') && ThroughCurrentDir(name)
  }

  /** Every component of `name` before its last is `.` or empty. */
  predicate ThroughCurrentDir(name: string)
    decreases |name|
  {
    if '/' !in name then true
    else if name[0] == '/' then ThroughCurrentDir(name[1..])
    else if |name| >= 2 && name[..2] == "./" then ThroughCurrentDir(name[2..])
    else false
  }

  /** Where the copy of an upload lands, for a plain file name and for
      each way of putting a directory in front of it. */
  lemma TempDirPlacement(base: string)
    requires '/' !in base
    ensures InTempDir(base)
    ensures InTempDir("./" + base) && InTempDir(".//" + base) && InTempDir("././" + base)
    ensures !InTempDir("/" + base) && !InTempDir("../" + base) && !InTempDir("./../" + base)
    ensures !InTempDir("sub/" + base)
  {
    assert ("./" + base)[2..] == base;
    assert (".//" + base)[2..] == "/" + base && ("/" + base)[1..] == base;
    assert ("././" + base)[2..] == "./" + base;
    assert ("../" + base)[..2] == "..";
    assert ("./../" + base)[2..] == "../" + base;
    assert ("sub/" + base)[..2] == "su";
  }

  /** A `./` in front of a name keeps its copy where it was. */
  lemma CurrentDirPrefix(name: string)
    ensures InTempDir("./" + name) <==> ThroughCurrentDir(name)
  {
    assert ("./" + name)[2..] == name;
    assert '/' in "./" + name by { assert ("./" + name)[1] == '/'; }
  }

  /** `finally: os.rmdir(temp_dir)` as written: it fails on a copy a failed
      file left inside the directory, and its `OSError` replaces the file's
      exception. A copy written outside does not stop it. */
  function FinishAsWritten(out: LoopOut): (run: BatchRun)
    ensures run.dirRemoved <==> !(out.leftover.Some? && InTempDir(out.leftover.value))
    ensures !run.dirRemoved ==> run.result == Raised(DirNotEmpty)
    ensures run.dirRemoved ==> run.result == out.result
  {
    if out.leftover.Some? && InTempDir(out.leftover.value) then BatchRun(Raised(DirNotEmpty), false)
    else BatchRun(out.result, true)
  }

  /** The cleanup as intended: the leftover copy goes with the directory, so
      the directory is always removed and the file's own exception surfaces. */
  function FinishCleaned(out: LoopOut): (run: BatchRun)
    ensures run.dirRemoved
    ensures run.result == out.result
  {
    BatchRun(out.result, true)
  }

  /** Some file raised after its copy was saved inside the temporary
      directory, every file before it having been processed: that copy is
      still there. */
  ghost predicate LeavesCopy(step: Upload -> FileStep, files: seq<Upload>) {
    exists k ::
      && 0 <= k < |files| && step(files[k]).ProcessRaised? && InTempDir(files[k].filename)
      && forall j :: 0 <= j < k ==> step(files[j]).Upserted?
  }

  /** The loop leaves a copy in the temporary directory exactly when the
      first file that does not complete raised after being saved there. */
  lemma IngestLeftover(step: Upload -> FileStep, files: seq<Upload>)
    ensures var out := Ingest(step, files);
      out.leftover.Some? && InTempDir(out.leftover.value) <==> LeavesCopy(step, files)
  {
    var out := Ingest(step, files);
    IngestOk(step, files);
    if out.result.Raised? {
      IngestStopsAtFirstFailure(step, files);
      var k :| FirstFailure(step, files, k, out);
      if LeavesCopy(step, files) {
        var k' :| 0 <= k' < |files| && step(files[k']).ProcessRaised? && InTempDir(files[k'].filename)
          && forall j :: 0 <= j < k' ==> step(files[j]).Upserted?;
        assert !(k < k') && !(k' < k);
      }
    }
  }

  /** `process_and_upsert_documents(files, user_id)` as written: the
      directory is removed exactly when no file left its copy in it, and
      otherwise `os.rmdir`'s `OSError` is what the caller sees. */
  method ProcessAndUpsertDocuments(env: IngestEnv, userId: string, files: seq<Upload>) returns (run: BatchRun)
    ensures run == FinishAsWritten(Ingest(StepOf(env, userId), files))
    ensures run.dirRemoved <==> !LeavesCopy(StepOf(env, userId), files)
    ensures !run.dirRemoved ==> run.result == Raised(DirNotEmpty)
    ensures run.dirRemoved ==> run.result == Ingest(StepOf(env, userId), files).result
  {
    var out := IngestFiles(env, userId, files);
    IngestLeftover(StepOf(env, userId), files);
    run := FinishAsWritten(out);
  }

  /** The same batch with the intended cleanup. */
  method ProcessAndUpsertDocumentsCleaned(env: IngestEnv, userId: string, files: seq<Upload>) returns (run: BatchRun)
    ensures run.dirRemoved
    ensures run.result == Ingest(StepOf(env, userId), files).result
    ensures run.result.Ok? <==> forall k :: 0 <= k < |files| ==> FileStepOf(env, userId, files[k]).Upserted?
    ensures run.result.Raised? ==>
      exists k :: FirstFailure(StepOf(env, userId), files, k, Ingest(StepOf(env, userId), files))
    ensures run.result.Ok? ==>
      exists idx :: SelectedInOrder(StepOf(env, userId), files, run.result.value, idx)
  {
    var step := StepOf(env, userId);
    var out := IngestFiles(env, userId, files);
    IngestOk(step, files);
    if out.result.Ok? {
      IngestSelects(step, files);
    } else {
      IngestStopsAtFirstFailure(step, files);
    }
    run := FinishCleaned(out);
  }

  /** The masked error, on a one-file batch: an `.rtf` upload raises
      `ValueError` after its copy was saved, so `os.rmdir` raises instead, the
      caller never sees the `ValueError` and the directory stays. */
  lemma UnsupportedUploadMaskedByRmdir(env: IngestEnv, userId: string, content: seq<bv8>)
    requires env.save(Upload("notes.rtf", content)).None?
    ensures FileStepOf(env, userId, Upload("notes.rtf", content)) == ProcessRaised("Unsupported file type: .rtf")
    ensures var out := Ingest(StepOf(env, userId), [Upload("notes.rtf", content)]);
      && FinishAsWritten(out) == BatchRun(Raised(DirNotEmpty), false)
      && FinishCleaned(out) == BatchRun(Raised("Unsupported file type: .rtf"), true)
  {
    PlainRtfUnsupported(env, content);
    RtfPlacement();
    OneFileRaised(StepOf(env, userId), Upload("notes.rtf", content), "Unsupported file type: .rtf");
  }

  /** `notes.rtf` has extension `.rtf`, which no reader handles. */
  lemma PlainRtfUnsupported(env: IngestEnv, content: seq<bv8>)
    ensures ProcessDocument(env.readers, env.svc, Upload("notes.rtf", content)) == Raised("Unsupported file type: .rtf")
  {
    var name := "notes.rtf";
    assert name[5] == '.' && name[6] == 'r' && name[7] == 't' && name[8] == 'f';
    assert forall j :: 0 <= j < |name| ==> name[j] != '/';
    assert LastIndexOf(name, '/') == -1;
    assert LastIndexOf(name, '.') == 5;
    assert name[0] != '.';
    assert SplitExt(name).1 == ".rtf";
    assert Strings.Lower(".rtf") == ".rtf";
    assert Extension(name) == ".rtf";
    assert FormatOf(".rtf") == Raised("Unsupported file type: .rtf");
  }

  /** The same upload under `../notes.rtf`: its copy is written outside the
      temporary directory, so `os.rmdir` succeeds and the `ValueError`
      reaches the caller even as written. */
  lemma EscapingUploadKeepsItsError(env: IngestEnv, userId: string, content: seq<bv8>)
    requires env.save(Upload("../notes.rtf", content)).None?
    ensures var out := Ingest(StepOf(env, userId), [Upload("../notes.rtf", content)]);
      FinishAsWritten(out) == BatchRun(Raised("Unsupported file type: .rtf"), true)
  {
    RtfStep(env, userId, "../notes.rtf", content, 2);
    RtfPlacement();
    OneFileRaised(StepOf(env, userId), Upload("../notes.rtf", content), "Unsupported file type: .rtf");
  }

  /** The same upload under `./notes.rtf`: the path still resolves inside the
      temporary directory, so as written `os.rmdir` again masks the
      `ValueError`. */
  lemma CurrentDirUploadMaskedByRmdir(env: IngestEnv, userId: string, content: seq<bv8>)
    requires env.save(Upload("./notes.rtf", content)).None?
    ensures var out := Ingest(StepOf(env, userId), [Upload("./notes.rtf", content)]);
      && FinishAsWritten(out) == BatchRun(Raised(DirNotEmpty), false)
      && FinishCleaned(out) == BatchRun(Raised("Unsupported file type: .rtf"), true)
  {
    RtfStep(env, userId, "./notes.rtf", content, 1);
    RtfPlacement();
    OneFileRaised(StepOf(env, userId), Upload("./notes.rtf", content), "Unsupported file type: .rtf");
  }

  /** Where the copies of the three `notes.rtf` uploads land. */
  lemma RtfPlacement()
    ensures InTempDir("notes.rtf") && InTempDir("./notes.rtf") && !InTempDir("../notes.rtf")
  {
    TempDirPlacement("notes.rtf");
    assert "./notes.rtf" == "./" + "notes.rtf";
    assert "../notes.rtf" == "../" + "notes.rtf";
  }

  /** A one-file batch whose file raises after its copy was saved stops
      with that file's exception, and its copy is left behind. */
  lemma OneFileRaised(step: Upload -> FileStep, f: Upload, m: string)
    requires step(f) == ProcessRaised(m)
    ensures Ingest(step, [f]) == LoopOut(Raised(m), [], Some(f.filename))
    ensures FinishAsWritten(Ingest(step, [f])) ==
      if InTempDir(f.filename) then BatchRun(Raised(DirNotEmpty), false) else BatchRun(Raised(m), true)
    ensures FinishCleaned(Ingest(step, [f])) == BatchRun(Raised(m), true)
  {
  }

  /** A saved `notes.rtf` upload under any directory part raises
      `ValueError` in processing. */
  lemma RtfStep(env: IngestEnv, userId: string, name: string, content: seq<bv8>, slash: nat)
    requires slash < |name| && name[slash + 1..] == "notes.rtf"
    requires name[slash] == '/'
    requires env.save(Upload(name, content)).None?
    ensures StepOf(env, userId)(Upload(name, content)) == ProcessRaised("Unsupported file type: .rtf")
  {
    RtfUnsupported(env, name, content, slash);
  }

  /** A name `dir + "/notes.rtf"` whose directory part holds no `/` has
      extension `.rtf`, which no reader handles. */
  lemma RtfUnsupported(env: IngestEnv, name: string, content: seq<bv8>, slash: nat)
    requires slash < |name| && name[slash + 1..] == "notes.rtf"
    requires name[slash] == '/'
    ensures ProcessDocument(env.readers, env.svc, Upload(name, content)) == Raised("Unsupported file type: .rtf")
  {
    var dot := slash + 6;
    assert name[dot] == '.' && name[dot + 1] == 'r' && name[dot + 2] == 't' && name[dot + 3] == 'f';
    assert |name| == dot + 4;
    assert forall j :: slash < j < |name| ==> name[j] != '/';
    assert LastIndexOf(name, '/') == slash;
    assert LastIndexOf(name, '.') == dot;
    assert name[slash + 1] != '.';
    assert HasNonDot(name, slash + 1, dot);
    assert SplitExt(name).1 == ".rtf";
    assert Strings.Lower(".rtf") == ".rtf";
    assert Extension(name) == ".rtf";
    assert FormatOf(".rtf") == Raised("Unsupported file type: .rtf");
  }
}

=== FILE: outcomes.dfy ===
/** Failure-compatible wrappers shared by every module of the model.

    The source signals failure with Python exceptions; here a call that may
    raise returns a `Result`, whose `Raised` case carries the exception text
    (what `str(e)` would give). */
module Outcomes {

  /** Python's `None` / a present value. */
  datatype Option<+T> = None | Some(value: T) {

    function GetOr(default: T): T {
      match this
      case Some(v) => v
      case None => default
    }
  }

  /** The outcome of a call that may raise. */
  datatype Result<+T> = Ok(value: T) | Raised(message: string) {

    predicate IsFailure() {
      Raised?
    }

    function PropagateFailure<U>(): Result<U>
      requires Raised?
    {
      Raised(message)
    }

    function Extract(): T
      requires Ok?
    {
      value
    }
  }
}

=== FILE: retrieval.dfy ===
/** `retrieve_chunks`: the query of a user's namespace in the vector index
    and the mapping of its matches to chunk texts. */
module Retrieval {
  import opened Outcomes
  import Vectors

  /** One match of a query response: its `metadata` dictionary, or `None`
      when the index stored none. Only string values are modelled. */
  datatype Match = Match(metadata: Option<map<string, string>>)

  /** The vector index as the function sees it: the embedding call and
      `index.query(namespace, vector, top_k)`, whose `matches` field may be
      null (`None`) and which may raise. */
  datatype Index = Index(
    embed: string -> Vectors.Embedding,
    query: (string, Vectors.Embedding, nat) -> Result<Option<seq<Match>>>)

  /** The metadata key the chunk text is stored under. */
  const TextKey: string := "text"

  /** `match['metadata']['text']` succeeds. */
  predicate HasText(m: Match) {
    m.metadata.Some? && TextKey in m.metadata.value
  }

  /** The `for match in response['matches']` loop: `None` stands for the
      `TypeError` or `KeyError` of a match without metadata or text. */
  function MatchTexts(ms: seq<Match>): (r: Option<seq<string>>)
    ensures r.Some? <==> forall k :: 0 <= k < |ms| ==> HasText(ms[k])
    ensures r.Some? ==>
      && |r.value| == |ms|
      && forall k :: 0 <= k < |ms| ==> r.value[k] == ms[k].metadata.value[TextKey]
  {
    if ms == [] then Some([])
    else if !HasText(ms[0]) then None
    else match MatchTexts(ms[1..])
      case None => None
      case Some(rest) => Some([ms[0].metadata.value[TextKey]] + rest)
  }

  /** `retrieve_chunks(namespace, query, num_results)`: `None` on any
      exception and on a null or empty match list, the match texts otherwise. */
  function RetrieveChunks(index: Index, namespace: string, query: string, numResults: nat): (r: Option<seq<string>>)
    ensures r.Some? ==> |r.value| > 0
    ensures var response := index.query(namespace, index.embed(query), numResults);
      r.Some? <==>
        && response.Ok?
        && response.value.Some?
        && response.value.value != []
        && forall k :: 0 <= k < |response.value.value| ==> HasText(response.value.value[k])
    ensures var response := index.query(namespace, index.embed(query), numResults);
      r.Some? ==>
        && |r.value| == |response.value.value|
        && forall k :: 0 <= k < |r.value| ==> r.value[k] == response.value.value[k].metadata.value[TextKey]
  {
    match index.query(namespace, index.embed(query), numResults)
    case Raised(_) => None
    case Ok(matches) =>
      if matches.None? || matches.value == [] then None
      else MatchTexts(matches.value)
  }

  /** The result depends on the index only through the given namespace: two
      indexes that answer that namespace alike give the same chunks. */
  lemma NamespaceIsolation(a: Index, b: Index, namespace: string, query: string, numResults: nat)
    requires a.embed == b.embed
    requires forall e: Vectors.Embedding, k: nat :: a.query(namespace, e, k) == b.query(namespace, e, k)
    ensures RetrieveChunks(a, namespace, query, numResults) == RetrieveChunks(b, namespace, query, numResults)
  {
    assert a.query(namespace, a.embed(query), numResults) == b.query(namespace, b.embed(query), numResults);
  }

  /** The metadata dictionary an upserted vector is stored with. */
  function StoredMetadata(m: Vectors.Metadata): (d: map<string, string>)
    ensures TextKey in d && d[TextKey] == m.text
  {
    match m.source
    case None => map[TextKey := m.text]
    case Some(s) => map[TextKey := m.text, "source" := s]
  }

  /** The matches for a list of upserted vectors, in order. */
  function MatchesOf(vs: seq<Vectors.Vector>): (ms: seq<Match>)
    ensures |ms| == |vs|
    ensures forall k :: 0 <= k < |vs| ==> ms[k] == Match(Some(StoredMetadata(vs[k].metadata)))
  {
    if vs == [] then [] else [Match(Some(StoredMetadata(vs[0].metadata)))] + MatchesOf(vs[1..])
  }

  /** Round trip with the ingestion side: when the query answers with the
      vectors built from non-empty `chunks`, retrieval gives back exactly
      those chunks, in order. */
  lemma RetrieveBuiltChunks(index: Index, namespace: string, query: string, numResults: nat,
                            chunks: seq<string>, source: Option<string>)
    requires chunks != []
    requires index.query(namespace, index.embed(query), numResults)
      == Ok(Some(MatchesOf(Vectors.BuildVectors(index.embed, chunks, source))))
    ensures RetrieveChunks(index, namespace, query, numResults) == Some(chunks)
  {
    var vs := Vectors.BuildVectors(index.embed, chunks, source);
    var r := RetrieveChunks(index, namespace, query, numResults);
    assert r.Some?;
    assert |r.value| == |chunks|;
    assert forall k :: 0 <= k < |chunks| ==> r.value[k] == chunks[k];
    assert r.value == chunks;
  }
}

=== FILE: strings.dfy ===
/** String helpers over `seq<char>`: prefixes, concatenation, the
    "unit + newline" shape the extractors build, separator joins and the
    ASCII part of `str.lower`. */
module Strings {

  /** Python's `s.startswith(prefix)`. */
  predicate StartsWith(s: string, prefix: string) {
    |prefix| <= |s| && s[..|prefix|] == prefix
  }

  /** `"".join(parts)`: the parts concatenated in order. */
  function Concat(parts: seq<string>): string {
    if parts == [] then "" else parts[0] + Concat(parts[1..])
  }

  /** Sum of the lengths of the parts. */
  function TotalLength(parts: seq<string>): nat {
    if parts == [] then 0 else |parts[0]| + TotalLength(parts[1..])
  }

  lemma {:induction false} ConcatAppend(a: seq<string>, b: seq<string>)
    ensures Concat(a + b) == Concat(a) + Concat(b)
  {
    if a == [] {
      assert a + b == b;
    } else {
      assert (a + b)[1..] == a[1..] + b;
      ConcatAppend(a[1..], b);
    }
  }

  /** Index of the first occurrence of `c` in `s`, or `|s|` when there is none. */
  function IndexOf(s: string, c: char): (i: nat)
    ensures i <= |s|
    ensures i < |s| ==> s[i] == c
    ensures forall j :: 0 <= j < i ==> s[j] != c
  {
    if s == [] then 0
    else if s[0] == c then 0
    else 1 + IndexOf(s[1..], c)
  }

  /** `sep.join(parts)` for a one-character separator. */
  function Join(sep: char, parts: seq<string>): string {
    if parts == [] then ""
    else if |parts| == 1 then parts[0]
    else parts[0] + [sep] + Join(sep, parts[1..])
  }

  /** `s.split(sep)` for a one-character separator: never empty, and the
      pieces contain no separator. */
  function Split(sep: char, s: string): (r: seq<string>)
    ensures |r| > 0
    ensures forall k :: 0 <= k < |r| ==> sep !in r[k]
    decreases |s|
  {
    var i := IndexOf(s, sep);
    if i == |s| then [s] else [s[..i]] + Split(sep, s[i + 1..])
  }

  lemma IndexOfPrefix(u: string, sep: char, rest: string)
    requires sep !in u
    ensures IndexOf(u + [sep] + rest, sep) == |u|
  {
    var s := u + [sep] + rest;
    assert s[|u|] == sep;
    assert forall j :: 0 <= j < |u| ==> s[j] == u[j];
  }

  /** Splitting undoes joining, as long as no part holds the separator. */
  lemma {:induction false} SplitJoin(sep: char, parts: seq<string>)
    requires |parts| > 0
    requires forall k :: 0 <= k < |parts| ==> sep !in parts[k]
    ensures Split(sep, Join(sep, parts)) == parts
  {
    if |parts| == 1 {
      assert IndexOf(parts[0], sep) == |parts[0]|;
    } else {
      var rest := Join(sep, parts[1..]);
      var s := parts[0] + [sep] + rest;
      IndexOfPrefix(parts[0], sep, rest);
      assert s[..|parts[0]|] == parts[0];
      assert s[|parts[0]| + 1..] == rest;
      SplitJoin(sep, parts[1..]);
      assert [parts[0]] + parts[1..] == parts;
    }
  }

  /** The extractors' shape: each unit followed by a newline, in order. */
  function Terminated(units: seq<string>): string {
    if units == [] then "" else units[0] + "\n" + Terminated(units[1..])
  }

  /** Each unit with its own newline appended, position by position. */
  function WithNewlines(units: seq<string>): (lines: seq<string>)
    ensures |lines| == |units|
    ensures forall k :: 0 <= k < |units| ==> lines[k] == units[k] + "\n"
  {
    seq(|units|, k requires 0 <= k < |units| => units[k] + "\n")
  }

  /** The terminated text is the concatenation of the units' lines. */
  lemma {:induction false} TerminatedIsConcat(units: seq<string>)
    ensures Terminated(units) == Concat(WithNewlines(units))
  {
    if units != [] {
      TerminatedIsConcat(units[1..]);
      assert WithNewlines(units)[1..] == WithNewlines(units[1..]);
    }
  }

  /** Terminating distributes over concatenation of unit lists. */
  lemma {:induction false} TerminatedAppend(a: seq<string>, b: seq<string>)
    ensures Terminated(a + b) == Terminated(a) + Terminated(b)
  {
    if a == [] {
      assert a + b == b;
    } else {
      assert (a + b)[1..] == a[1..] + b;
      TerminatedAppend(a[1..], b);
    }
  }

  /** Reads back newline-terminated lines; the inverse of `Terminated`. */
  function SplitTerminated(s: string): seq<string> {
    if s == "" then [] else Split('\n', s[..|s| - 1])
  }

  lemma {:induction false} TerminatedIsJoin(units: seq<string>)
    requires |units| > 0
    ensures Terminated(units) == Join('\n', units) + "\n"
  {
    if |units| > 1 {
      TerminatedIsJoin(units[1..]);
    }
  }

  lemma {:induction false} TerminatedLength(units: seq<string>)
    ensures |Terminated(units)| == TotalLength(units) + |units|
  {
    if units != [] {
      TerminatedLength(units[1..]);
    }
  }

  /** The extracted text determines its units: reading the newline-terminated
      text back gives the units in document order. */
  lemma SplitTerminatedRoundTrip(units: seq<string>)
    requires forall k :: 0 <= k < |units| ==> '\n' !in units[k]
    ensures SplitTerminated(Terminated(units)) == units
  {
    if units != [] {
      TerminatedIsJoin(units);
      var j := Join('\n', units);
      assert (j + "\n")[..|j + "\n"| - 1] == j;
      SplitJoin('\n', units);
    }
  }

  /** `c.lower()` for ASCII upper-case letters; every other character is kept. */
  function LowerChar(c: char): char {
    if 'A' <= c <= 'Z' then (c as int + 32) as char else c
  }

  function Lower(s: string): (r: string)
    ensures |r| == |s|
    ensures forall k :: 0 <= k < |s| ==> r[k] == LowerChar(s[k])
  {
    if s == [] then "" else [LowerChar(s[0])] + Lower(s[1..])
  }

  function DigitChar(d: nat): char
    requires d < 10
  {
    "0123456789"[d]
  }

  /** `str(n)` for a natural number. */
  function Decimal(n: nat): string {
    if n < 10 then [DigitChar(n)] else Decimal(n / 10) + [DigitChar(n % 10)]
  }
}

=== FILE: upload_router.dfy ===
/** The data-upload endpoints: which side effects each request causes and
    which status code it answers with. Database statements are the store
    functions of `Database`; a statement that raises is given as a fault
    message and leaves the store as it was. */
module UploadRouter {
  import opened Outcomes
  import Strings
  import Chunking
  import opened Vectors
  import Database
  import WebCrawler
  import DocumentProcessor

  /** The JSON body of an answer. */
  datatype Body =
    | Message(text: string)
    | CrawlStarted(jobId: string, status: Database.JobStatus, url: string, depth: int, text: string)
    | JobState(jobId: string, status: Database.JobStatus)
    | Processed(text: string, documents: seq<string>)

  /** An HTTP answer: a `JSONResponse`, or the `HTTPException` an endpoint
      raises, whose detail is the message body. */
  datatype Reply = Reply(code: nat, body: Body)

  // ----- process_url_content_background -----

  /** What the background task did: chunking raised (and was logged), or the
      upsert of the built vectors was called in a namespace with a result
      (a false or raised result is logged too). */
  datatype Background =
    | ChunkingRaised(message: string)
    | UpsertCalled(namespace: string, vectors: seq<Vector>, result: Result<bool>)

  /** `process_url_content_background(url, content, user_id)`: it never
      raises; the upsert goes to the user's namespace with one vector per
      chunk, in order, each carrying its chunk as `text` and its embedding. */
  function ProcessUrlContentBackground(svc: Services, url: string, content: string, userId: string): (r: Background)
    ensures r.ChunkingRaised? <==> Chunking.GetChunks(svc.split, content).Raised?
    ensures r.UpsertCalled? ==>
      var chunks := Chunking.GetChunks(svc.split, content).value;
      && r.namespace == userId
      && Texts(r.vectors) == chunks
      && |r.vectors| == |chunks|
      && (forall k :: 0 <= k < |r.vectors| ==>
            r.vectors[k].metadata.source.None? && r.vectors[k].values == svc.embed(chunks[k]))
      && r.result == svc.upsert(r.vectors, userId)
  {
    match Chunking.GetChunks(svc.split, content)
    case Raised(m) => ChunkingRaised(m)
    case Ok(chunks) =>
      var vectors := BuildVectors(svc.embed, chunks, None);
      TextsOfBuiltVectors(svc.embed, chunks, None);
      UpsertCalled(userId, vectors, svc.upsert(vectors, userId))
  }

  /** The background task and the crawler's per-page step upsert the same
      vectors: the background upsert returns true exactly when the crawler would
      count that content as processed. */
  lemma BackgroundAgreesWithCrawler(svc: Services, url: string, content: string, userId: string)
    ensures var r := ProcessUrlContentBackground(svc, url, content, userId);
      (r.UpsertCalled? && r.result == Ok(true)) <==> WebCrawler.ProcessAndUpsertContent(svc, content, userId)
  {
    WebCrawler.ProcessAndUpsertContentTruth(svc, content, userId);
  }

  // ----- scrape_single_url_api -----

  /** The answer of `requests.get`. */
  datatype Page = Page(statusCode: int, text: string)

  /** A scheduled `process_url_content_background` call. */
  datatype BackgroundTask = BackgroundTask(url: string, content: string, userId: string)

  /** The store after the request, the task it scheduled, and its answer or
      the exception it re-raised. */
  datatype ScrapeRun = ScrapeRun(store: Database.Store, scheduled: Option<BackgroundTask>, reply: Result<Reply>)

  const ScrapeStarted: string :=
    "URL scraping started successfully. Processing will continue in the background."

  /** `scrape_single_url_api`: fetch, refuse a non-200 answer, record the URL,
      schedule the processing of the page. */
  function ScrapeSingleUrl(get: string -> Result<Page>, s: Database.Store, recordFault: Option<string>,
                           userId: string, url: string): (r: ScrapeRun)
    ensures r.reply.Ok? <==>
      get(url).Ok? && get(url).value.statusCode == 200 && recordFault.None?
    ensures r.reply.Ok? ==>
      && r.reply.value == Reply(200, Message(ScrapeStarted))
      && r.store == Database.UpdateSinglePageUrls(s, userId, url)
      && r.scheduled == Some(BackgroundTask(url, get(url).value.text, userId))
    ensures r.reply.Raised? ==> r.store == s && r.scheduled.None?
    ensures get(url).Ok? && get(url).value.statusCode != 200 ==>
      r.reply == Raised("Failed to scrape url: " + url)
  {
    match get(url)
    case Raised(m) => ScrapeRun(s, None, Raised(m))
    case Ok(page) =>
      if page.statusCode != 200 then ScrapeRun(s, None, Raised("Failed to scrape url: " + url))
      else if recordFault.Some? then ScrapeRun(s, None, Raised(recordFault.value))
      else ScrapeRun(Database.UpdateSinglePageUrls(s, userId, url), Some(BackgroundTask(url, page.text, userId)),
                     Ok(Reply(200, Message(ScrapeStarted))))
  }

  /** A successful scrape records the URL once, at the end of the user's
      single-page list, and leaves every other list alone. */
  lemma ScrapeRecordsUrl(get: string -> Result<Page>, s: Database.Store, userId: string, url: string)
    requires userId in s.users
    requires get(url).Ok? && get(url).value.statusCode == 200
    ensures var r := ScrapeSingleUrl(get, s, None, userId, url);
      && r.reply.Ok?
      && Database.GetSinglePageUrls(r.store, userId) == Database.GetSinglePageUrls(s, userId) + [url]
      && (forall u :: u != userId ==> Database.GetSinglePageUrls(r.store, u) == Database.GetSinglePageUrls(s, u))
      && (forall u :: Database.GetWebCrawlUrls(r.store, u) == Database.GetWebCrawlUrls(s, u))
  {
  }

  // ----- web_crawl_api -----

  /** A scheduled `crawl_website` call. */
  datatype CrawlTask = CrawlTask(url: string, userId: string, jobId: string, depth: int)

  datatype CrawlRequestRun = CrawlRequestRun(store: Database.Store, scheduled: Option<CrawlTask>, reply: Reply)

  /** `web_crawl_api`: create the job, schedule the crawl, answer `pending`
      with the job id; a failed job creation answers 500 and schedules
      nothing. `uuid` is the fresh uuid4 of the job id. */
  function WebCrawlApi(s: Database.Store, createFault: Option<string>, uuid: string, now: Database.Time,
                       userId: string, url: string, depth: int): (r: CrawlRequestRun)
    requires 1 <= depth <= 5
    requires Database.JobIdPrefix + uuid !in s.jobs
    ensures r.reply.code == 200 <==> createFault.None?
    ensures createFault.Some? ==>
      && r.reply == Reply(500, Message("Error starting web crawl: " + createFault.value))
      && r.store == s && r.scheduled.None?
    ensures createFault.None? ==>
      var jobId := Database.JobIdPrefix + uuid;
      && r.scheduled == Some(CrawlTask(url, userId, jobId, depth))
      && r.reply.body.CrawlStarted?
      && r.reply.body.jobId == jobId && r.reply.body.status == Database.Pending
      && r.reply.body.url == url && r.reply.body.depth == depth
      && jobId in r.store.jobs && r.store.jobs[jobId].status == Database.Pending
      && r.store.jobs[jobId].userId == userId
  {
    if createFault.Some? then
      CrawlRequestRun(s, None, Reply(500, Message("Error starting web crawl: " + createFault.value)))
    else
      var (s', jobId) := Database.CreateCrawlingJob(s, userId, url, uuid, now);
      var text := "Web crawling started successfully. Will crawl up to " + Strings.Decimal(depth) + " pages.";
      CrawlRequestRun(s', Some(CrawlTask(url, userId, jobId, depth)),
                      Reply(200, CrawlStarted(jobId, Database.Pending, url, depth, text)))
  }

  // ----- get_web_crawl_status -----

  /** The detail of the 404 `HTTPException` as `str(e)` renders it. */
  const JobNotFound: string := "404: Job not found"

  /** `get_web_crawl_status`: the job's status for its owner. The 404 for an
      unknown job is raised inside the `try` and turned into a 500 by the
      generic handler. */
  function GetWebCrawlStatus(s: Database.Store, readFault: Option<string>, jobId: string, userId: string): (r: Reply)
    ensures r.code != 404
    ensures r.code == 200 <==> readFault.None? && jobId in s.jobs && s.jobs[jobId].userId == userId
    ensures r.code == 200 ==> r.body == JobState(jobId, s.jobs[jobId].status)
    ensures r.code != 200 ==> r.code == 500
    ensures readFault.None? && r.code != 200 ==>
      r.body == Message("Failed to get job status: " + JobNotFound)
  {
    if readFault.Some? then Reply(500, Message("Failed to get job status: " + readFault.value))
    else match Database.GetJobStatus(s, jobId, userId)
      case None => Reply(500, Message("Failed to get job status: " + JobNotFound))
      case Some(view) => Reply(200, JobState(jobId, view.status))
  }

  /** The job a crawl request answers with reads back as `pending` for the
      requesting user, and as the 500 of an unknown job for anyone else. */
  lemma CrawlRequestThenStatus(s: Database.Store, uuid: string, now: Database.Time,
                               userId: string, url: string, depth: int, reader: string)
    requires 1 <= depth <= 5
    requires Database.JobIdPrefix + uuid !in s.jobs
    ensures var r := WebCrawlApi(s, None, uuid, now, userId, url, depth);
      var jobId := r.reply.body.jobId;
      GetWebCrawlStatus(r.store, None, jobId, reader) ==
        if reader == userId then Reply(200, JobState(jobId, Database.Pending))
        else Reply(500, Message("Failed to get job status: " + JobNotFound))
  {
  }

  // ----- upload_documents -----

  datatype UploadRun = UploadRun(store: Database.Store, reply: Reply)

  const NoneProcessed: string := "No documents were successfully processed"

  /** `upload_documents`: run the batch as written, record the processed
      names, and answer 200 with them, 400 when there are none, 500 on an
      exception. A file that raised after being saved surfaces as the
      `OSError` of `os.rmdir`, not as its own exception. */
  method UploadDocuments(env: DocumentProcessor.IngestEnv, s: Database.Store, updateFault: Option<string>,
                         userId: string, files: seq<DocumentProcessor.Upload>) returns (run: UploadRun)
    ensures var batch := DocumentProcessor.FinishAsWritten(
        DocumentProcessor.Ingest(DocumentProcessor.StepOf(env, userId), files)).result;
      && (run.reply.code == 200 <==> batch.Ok? && batch.value != [] && updateFault.None?)
      && (run.reply.code == 400 <==> batch == Ok([]))
      && (run.reply.code == 500 <==> batch.Raised? || (batch.Ok? && batch.value != [] && updateFault.Some?))
      && (batch.Raised? ==> run.reply.body == Message(UploadError + batch.message))
      && (run.reply.code == 200 ==>
            && run.reply.body.Processed?
            && run.reply.body.documents == batch.value
            && run.store == Database.UpdateUserDocuments(s, userId, batch.value))
      && (run.reply.code != 200 ==> run.store == s)
    ensures DocumentProcessor.LeavesCopy(DocumentProcessor.StepOf(env, userId), files) ==>
      run == UploadRun(s, Reply(500, Message(UploadError + DocumentProcessor.DirNotEmpty)))
  {
    var batch := DocumentProcessor.ProcessAndUpsertDocuments(env, userId, files);
    run := Answer(s, updateFault, userId, batch.result);
  }

  /** The same endpoint over the batch with the intended cleanup: the first
      failing file's own exception reaches the 500 answer. */
  method UploadDocumentsCleaned(env: DocumentProcessor.IngestEnv, s: Database.Store, updateFault: Option<string>,
                                userId: string, files: seq<DocumentProcessor.Upload>) returns (run: UploadRun)
    ensures var batch := DocumentProcessor.Ingest(DocumentProcessor.StepOf(env, userId), files).result;
      && (run.reply.code == 200 <==> batch.Ok? && batch.value != [] && updateFault.None?)
      && (run.reply.code == 400 <==> batch == Ok([]))
      && (run.reply.code == 500 <==> batch.Raised? || (batch.Ok? && batch.value != [] && updateFault.Some?))
      && (batch.Raised? ==> run.reply.body == Message(UploadError + batch.message))
      && (run.reply.code == 200 ==>
            && run.reply.body.Processed?
            && run.reply.body.documents == batch.value
            && run.store == Database.UpdateUserDocuments(s, userId, batch.value))
      && (run.reply.code != 200 ==> run.store == s)
  {
    var batch := DocumentProcessor.ProcessAndUpsertDocumentsCleaned(env, userId, files);
    run := Answer(s, updateFault, userId, batch.result);
  }

  const UploadError: string := "Error uploading documents: "

  /** Lines 262-284 once the batch has returned or raised. */
  method Answer(s: Database.Store, updateFault: Option<string>, userId: string, batch: Result<seq<string>>)
    returns (run: UploadRun)
    ensures run.reply.code == 200 <==> batch.Ok? && batch.value != [] && updateFault.None?
    ensures run.reply.code == 400 <==> batch == Ok([])
    ensures run.reply.code == 500 <==> batch.Raised? || (batch.Ok? && batch.value != [] && updateFault.Some?)
    ensures batch.Raised? ==> run == UploadRun(s, Reply(500, Message(UploadError + batch.message)))
    ensures run.reply.code == 200 ==>
      && run.reply.body.Processed?
      && run.reply.body.documents == batch.value
      && run.store == Database.UpdateUserDocuments(s, userId, batch.value)
    ensures run.reply.code != 200 ==> run.store == s
  {
    match batch
    case Raised(m) =>
      run := UploadRun(s, Reply(500, Message(UploadError + m)));
    case Ok(names) =>
      if names == [] {
        run := UploadRun(s, Reply(400, Message(NoneProcessed)));
      } else if updateFault.Some? {
        run := UploadRun(s, Reply(500, Message(UploadError + updateFault.value)));
      } else {
        var text := "Successfully processed " + Strings.Decimal(|names|) + " documents";
        run := UploadRun(Database.UpdateUserDocuments(s, userId, names), Reply(200, Processed(text, names)));
      }
  }

  /** A 200 upload appends to the user's documents exactly the names of the
      files whose upsert returned true, in upload order, and nothing else.
      Stated for any per-file step; the endpoint's is
      `DocumentProcessor.StepOf(env, userId)`. */
  lemma UploadRecordsSelected(step: DocumentProcessor.Upload -> DocumentProcessor.FileStep,
                              s: Database.Store, userId: string, files: seq<DocumentProcessor.Upload>)
    requires userId in s.users
    requires DocumentProcessor.Ingest(step, files).result.Ok?
    requires DocumentProcessor.Ingest(step, files).result.value != []
    ensures var names := DocumentProcessor.Ingest(step, files).result.value;
      && Database.GetUserDocuments(Database.UpdateUserDocuments(s, userId, names), userId)
           == Database.GetUserDocuments(s, userId) + names
      && exists idx :: DocumentProcessor.SelectedInOrder(step, files, names, idx)
  {
    DocumentProcessor.IngestSelects(step, files);
  }
}

=== FILE: vectors.dfy ===
/** The vector records built from chunks before an upsert, and the three
    foreign services every ingestion path goes through. */
module Vectors {
  import opened Outcomes
  import Chunking

  /** What `get_embeddings` returns: the embedding, or, when the API call
      fails, an error dictionary (it never raises). */
  datatype Embedding = Dense(values: seq<real>) | ErrorDict(error: string)

  /** The `metadata` dictionary of a vector: always `text`, and `source` for
      uploaded documents. */
  datatype Metadata = Metadata(text: string, source: Option<string>)

  /** One vector record; its uuid4 `id` is not modelled. */
  datatype Vector = Vector(values: Embedding, metadata: Metadata)

  /** The services of one ingestion: the semantic splitter, the embedding
      call and `upsert_chunks(vectors, namespace)`. The upsert's definition is
      not part of this model, so it is an oracle that either returns a truth
      value or raises. */
  datatype Services = Services(
    split: Chunking.Splitter,
    embed: string -> Embedding,
    upsert: (seq<Vector>, string) -> Result<bool>)

  /** The vector-building loop: one vector per chunk, appended in chunk order. */
  function BuildVectors(embed: string -> Embedding, chunks: seq<string>, source: Option<string>): (vs: seq<Vector>)
    ensures |vs| == |chunks|
    ensures forall k :: 0 <= k < |chunks| ==>
      vs[k].metadata == Metadata(chunks[k], source) && vs[k].values == embed(chunks[k])
  {
    if chunks == [] then []
    else
      var last := chunks[|chunks| - 1];
      BuildVectors(embed, chunks[..|chunks| - 1], source) + [Vector(embed(last), Metadata(last, source))]
  }

  /** The `text` metadata of each vector, in order. */
  function Texts(vs: seq<Vector>): seq<string> {
    if vs == [] then [] else [vs[0].metadata.text] + Texts(vs[1..])
  }

  lemma {:induction false} TextsAt(vs: seq<Vector>)
    ensures |Texts(vs)| == |vs|
    ensures forall k :: 0 <= k < |vs| ==> Texts(vs)[k] == vs[k].metadata.text
  {
    if vs != [] {
      TextsAt(vs[1..]);
    }
  }

  /** Reading the `text` metadata back from the built vectors gives the
      chunks back, in order. */
  lemma TextsOfBuiltVectors(embed: string -> Embedding, chunks: seq<string>, source: Option<string>)
    ensures Texts(BuildVectors(embed, chunks, source)) == chunks
  {
    TextsAt(BuildVectors(embed, chunks, source));
  }
}

=== FILE: web_crawler.dfy ===
/** utils/web_crawler.py: the same-domain crawl of one job, page processing
    and the job-status / browser lifecycle around it.  The browser, the HTML
    parser and the URL library are parameters. */
module WebCrawler {
  import opened Outcomes
  import Strings
  import Chunking
  import opened Vectors
  import Database

  /** The parts of `urlparse(url)` the domain is built from. */
  datatype UrlParts = UrlParts(scheme: string, netloc: string)

  /** The browser and HTML services of a crawl. */
  datatype Web = Web(
    // `urlparse`, which raises `ValueError` on a malformed bracketed host
    parse: string -> Result<UrlParts>,
    // `driver.get(url)`, the wait for `<body>` and `driver.page_source`
    load: string -> Result<string>,
    // the `href` of every `<a href=...>` BeautifulSoup finds, or its exception
    hrefs: string -> Result<seq<string>>,
    // `urljoin(base, href)`, which raises as `urlparse` does
    join: (string, string) -> Result<string>)

  /** `'{scheme}://{netloc}/'`. */
  function Domain(p: UrlParts): string {
    p.scheme + "://" + p.netloc + "/"
  }

  /** `get_domain(url)`: raises exactly when `urlparse` does. */
  function GetDomain(web: Web, url: string): (d: Result<string>)
    ensures d.Raised? <==> web.parse(url).Raised?
    ensures d.Raised? ==> d.message == web.parse(url).message
    ensures d.Ok? ==> Strings.StartsWith(d.value, web.parse(url).value.scheme + "://")
    ensures d.Ok? ==> |d.value| > 0 && d.value[|d.value| - 1] == '/'
    ensures d.Ok? ==> d.value == web.parse(url).value.scheme + "://" + web.parse(url).value.netloc + "/"
  {
    var parts :- web.parse(url);
    Ok(Domain(parts))
  }

  /** Two domain prefixes are equal exactly when scheme and network location
      are (a `urlparse` scheme never holds a colon). */
  lemma DomainInjective(p: UrlParts, q: UrlParts)
    requires ':' !in p.scheme && ':' !in q.scheme
    ensures Domain(p) == Domain(q) <==> p == q
  {
    if Domain(p) == Domain(q) {
      DomainSplit(p);
      DomainSplit(q);
    }
  }

  /** Two URLs share their domain prefix exactly when `urlparse` gives them
      the same scheme and network location. */
  lemma GetDomainInjective(web: Web, a: string, b: string)
    requires web.parse(a).Ok? && web.parse(b).Ok?
    requires ':' !in web.parse(a).value.scheme && ':' !in web.parse(b).value.scheme
    ensures GetDomain(web, a) == GetDomain(web, b) <==> web.parse(a).value == web.parse(b).value
  {
    DomainInjective(web.parse(a).value, web.parse(b).value);
  }

  lemma DomainSplit(p: UrlParts)
    requires ':' !in p.scheme
    ensures var d := Domain(p); var i := Strings.IndexOf(d, ':');
      i == |p.scheme| && d[..i] == p.scheme && i + 3 <= |d| - 1 && d[i + 3..|d| - 1] == p.netloc
  {
    var d := Domain(p);
    assert d == p.scheme + [':'] + ("//" + p.netloc + "/");
    Strings.IndexOfPrefix(p.scheme, ':', "//" + p.netloc + "/");
  }

  /** `get_page_content`: the page source, or `""` when loading raised. */
  function GetPageContent(web: Web, url: string): (content: string)
    ensures web.load(url).Raised? ==> content == ""
    ensures web.load(url).Ok? ==> content == web.load(url).value
  {
    match web.load(url)
    case Ok(source) => source
    case Raised(_) => ""
  }

  /** The filtering loop of `extract_links`: each href joined to the domain,
      kept when the result starts with the domain; the first `urljoin` that
      raises ends the loop with its exception. */
  function SameDomainLinks(join: (string, string) -> Result<string>, domain: string, hrefs: seq<string>)
    : (r: Result<set<string>>)
    ensures r.Raised? <==> exists k :: 0 <= k < |hrefs| && join(domain, hrefs[k]).Raised?
    ensures r.Raised? ==> exists k ::
      && 0 <= k < |hrefs| && join(domain, hrefs[k]) == Raised(r.message)
      && forall j :: 0 <= j < k ==> join(domain, hrefs[j]).Ok?
    ensures r.Ok? ==> forall l :: l in r.value ==> Strings.StartsWith(l, domain)
    ensures r.Ok? ==> forall k ::
      (0 <= k < |hrefs| && join(domain, hrefs[k]).Ok? && Strings.StartsWith(join(domain, hrefs[k]).value, domain))
        ==> join(domain, hrefs[k]).value in r.value
    ensures r.Ok? ==> forall l :: l in r.value ==> exists k :: 0 <= k < |hrefs| && join(domain, hrefs[k]) == Ok(l)
  {
    if hrefs == [] then Ok({})
    else
      var n := |hrefs| - 1;
      var earlier :- SameDomainLinks(join, domain, hrefs[..n]);
      var full :- join(domain, hrefs[n]);
      Ok(earlier + (if Strings.StartsWith(full, domain) then {full} else {}))
  }

  /** `extract_links(html, domain)`: raises when the HTML parser or one of
      the `urljoin` calls does. */
  function ExtractLinks(web: Web, html: string, domain: string): (r: Result<set<string>>)
    ensures web.hrefs(html).Raised? ==> r == Raised(web.hrefs(html).message)
    ensures r.Raised? <==>
      (web.hrefs(html).Raised? ||
       exists k :: 0 <= k < |web.hrefs(html).value| && web.join(domain, web.hrefs(html).value[k]).Raised?)
    ensures r.Ok? ==> forall l :: l in r.value ==> Strings.StartsWith(l, domain)
  {
    var hrefs :- web.hrefs(html);
    SameDomainLinks(web.join, domain, hrefs)
  }

  /** `process_and_upsert_content`: chunk, embed, upsert into the user's
      namespace; any exception becomes `false`. */
  function ProcessAndUpsertContent(svc: Services, content: string, userId: string): bool {
    match Chunking.GetChunks(svc.split, content)
    case Raised(_) => false
    case Ok(chunks) =>
      match svc.upsert(BuildVectors(svc.embed, chunks, None), userId)
      case Raised(_) => false
      case Ok(b) => b
  }

  /** The page counts as processed exactly when chunking succeeded and the
      upsert of one vector per chunk, carrying the chunk as its `text`,
      returned true; no exception escapes. */
  lemma ProcessAndUpsertContentTruth(svc: Services, content: string, userId: string)
    ensures ProcessAndUpsertContent(svc, content, userId) <==>
      var chunks := Chunking.GetChunks(svc.split, content);
      && chunks.Ok?
      && svc.upsert(BuildVectors(svc.embed, chunks.value, None), userId) == Ok(true)
  {
  }

  /** Whether visiting `url` succeeds: its content is non-empty and was
      chunked, embedded and upserted. */
  predicate Accepted(web: Web, svc: Services, userId: string, url: string) {
    var content := GetPageContent(web, url);
    content != "" && ProcessAndUpsertContent(svc, content, userId)
  }

  /** The transient state of one crawl. */
  datatype CrawlState = CrawlState(visited: set<string>, frontier: set<string>)

  /** Every URL the crawl knows is the seed or lies under the domain prefix. */
  predicate Confined(urls: set<string>, seed: string, domain: string) {
    forall u :: u in urls ==> u == seed || Strings.StartsWith(u, domain)
  }

  /** One iteration of the `while` loop, for the popped URL `cur`. */
  function Visit(web: Web, svc: Services, userId: string, domain: string, st: CrawlState, cur: string): (r: Result<CrawlState>)
    requires cur in st.frontier
    // the iteration raises only from link extraction on an accepted page
    ensures r.Raised? ==>
      && cur !in st.visited && Accepted(web, svc, userId, cur)
      && ExtractLinks(web, GetPageContent(web, cur), domain) == Raised(r.message)
    // a URL enters `visited` only when accepted; nothing else changes there
    ensures r.Ok? ==>
      r.value.visited == if cur !in st.visited && Accepted(web, svc, userId, cur) then st.visited + {cur} else st.visited
    // a skipped page only leaves the frontier
    ensures r.Ok? && r.value.visited == st.visited ==> r.value.frontier == st.frontier - {cur}
    // an accepted page's links re-enter the frontier unless visited
    ensures r.Ok? && r.value.visited != st.visited ==>
      var links := ExtractLinks(web, GetPageContent(web, cur), domain);
      links.Ok? && r.value.frontier == (st.frontier - {cur}) + (links.value - r.value.visited)
    ensures r.Ok? && st.visited !! st.frontier ==> r.value.visited !! r.value.frontier
  {
    var rest := st.frontier - {cur};
    if cur in st.visited then Ok(CrawlState(st.visited, rest))
    else
      var content := GetPageContent(web, cur);
      if content == "" || !ProcessAndUpsertContent(svc, content, userId) then Ok(CrawlState(st.visited, rest))
      else
        var visited := st.visited + {cur};
        match ExtractLinks(web, content, domain)
        case Raised(m) => Raised(m)
        case Ok(links) => Ok(CrawlState(visited, rest + (links - visited)))
  }

  /** The loop invariant of the crawl: nothing is both visited and pending,
      the page budget holds, every known URL is the seed or under the domain
      prefix, and every visited page was accepted. */
  predicate CrawlInvariant(web: Web, svc: Services, userId: string, seed: string, domain: string, depth: int, st: CrawlState) {
    && |st.visited| <= depth
    && st.visited !! st.frontier
    && Confined(st.visited + st.frontier, seed, domain)
    && forall u :: u in st.visited ==> Accepted(web, svc, userId, u)
  }

  /** Each iteration keeps the invariant and decreases
      `(depth - |visited|, |frontier|)` lexicographically. */
  lemma VisitKeepsInvariant(web: Web, svc: Services, userId: string, seed: string, domain: string, depth: int,
                            st: CrawlState, cur: string)
    requires cur in st.frontier && |st.visited| < depth
    requires CrawlInvariant(web, svc, userId, seed, domain, depth, st)
    ensures var r := Visit(web, svc, userId, domain, st, cur);
      r.Ok? ==>
        && CrawlInvariant(web, svc, userId, seed, domain, depth, r.value)
        && (|r.value.visited| == |st.visited| + 1 || (r.value.visited == st.visited && |r.value.frontier| < |st.frontier|))
  {
    var r := Visit(web, svc, userId, domain, st, cur);
    if r.Ok? {
      var next := r.value;
      if next.visited == st.visited {
        SkipKeepsInvariant(web, svc, userId, seed, domain, depth, st, cur, next);
      } else {
        var links := ExtractLinks(web, GetPageContent(web, cur), domain).value;
        AcceptKeepsInvariant(web, svc, userId, seed, domain, depth, st, cur, links, next);
      }
    }
  }

  lemma SkipKeepsInvariant(web: Web, svc: Services, userId: string, seed: string, domain: string, depth: int,
                           st: CrawlState, cur: string, next: CrawlState)
    requires cur in st.frontier
    requires CrawlInvariant(web, svc, userId, seed, domain, depth, st)
    requires next == CrawlState(st.visited, st.frontier - {cur})
    ensures CrawlInvariant(web, svc, userId, seed, domain, depth, next)
    ensures |next.frontier| < |st.frontier|
  {
    assert next.visited + next.frontier <= st.visited + st.frontier;
  }

  lemma AcceptKeepsInvariant(web: Web, svc: Services, userId: string, seed: string, domain: string, depth: int,
                             st: CrawlState, cur: string, links: set<string>, next: CrawlState)
    requires cur in st.frontier && |st.visited| < depth
    requires CrawlInvariant(web, svc, userId, seed, domain, depth, st)
    requires Accepted(web, svc, userId, cur)
    requires forall l :: l in links ==> Strings.StartsWith(l, domain)
    requires next.visited == st.visited + {cur}
    requires next.frontier == (st.frontier - {cur}) + (links - next.visited)
    ensures CrawlInvariant(web, svc, userId, seed, domain, depth, next)
    ensures |next.visited| == |st.visited| + 1
  {
    assert cur !in st.visited;
    AcceptKeepsConfined(st, cur, links, next, seed, domain);
  }

  /** Accepting a page keeps every known URL the seed or under the domain. */
  lemma AcceptKeepsConfined(st: CrawlState, cur: string, links: set<string>, next: CrawlState, seed: string, domain: string)
    requires cur in st.frontier
    requires Confined(st.visited + st.frontier, seed, domain)
    requires forall l :: l in links ==> Strings.StartsWith(l, domain)
    requires next.visited == st.visited + {cur}
    requires next.frontier == (st.frontier - {cur}) + (links - next.visited)
    ensures Confined(next.visited + next.frontier, seed, domain)
  {
    forall u | u in next.visited + next.frontier
      ensures u == seed || Strings.StartsWith(u, domain)
    {
      if u !in links {
        assert u in st.visited + st.frontier;
      }
    }
  }

  /** The links an accepted page adds to the frontier; `{}` when extracting
      them raises. */
  function Links(web: Web, domain: string, u: string): set<string> {
    match ExtractLinks(web, GetPageContent(web, u), domain)
    case Ok(links) => links
    case Raised(_) => {}
  }

  /** No accepted page reachable from the seed is lost: an accepted seed, and
      every accepted link of a visited page, is visited or still pending. */
  predicate NothingMissed(web: Web, svc: Services, userId: string, seed: string, domain: string,
                          visited: set<string>, frontier: set<string>) {
    && (Accepted(web, svc, userId, seed) ==> seed in visited + frontier)
    && forall u, l :: u in visited && l in Links(web, domain, u) && Accepted(web, svc, userId, l) ==>
         l in visited + frontier
  }

  /** Every URL in `known` is the seed or a link of a visited page: the crawl
      only goes where the pages it processed point. */
  predicate Linked(web: Web, domain: string, seed: string, visited: set<string>, known: set<string>) {
    forall u :: u in known ==> u == seed || exists v :: v in visited && u in Links(web, domain, v)
  }

  /** Each iteration keeps every known URL the seed or a link of a visited page. */
  lemma VisitKeepsLinked(web: Web, svc: Services, userId: string, seed: string, domain: string,
                         st: CrawlState, cur: string)
    requires cur in st.frontier
    requires Linked(web, domain, seed, st.visited, st.visited + st.frontier)
    ensures var r := Visit(web, svc, userId, domain, st, cur);
      r.Ok? ==> Linked(web, domain, seed, r.value.visited, r.value.visited + r.value.frontier)
  {
    var r := Visit(web, svc, userId, domain, st, cur);
    if r.Ok? {
      if r.value.visited == st.visited {
        assert r.value.visited + r.value.frontier <= st.visited + st.frontier;
      } else {
        AcceptKeepsLinked(web, domain, seed, st, cur, r.value);
      }
    }
  }

  /** Accepting a page adds itself and its own links. */
  lemma AcceptKeepsLinked(web: Web, domain: string, seed: string, st: CrawlState, cur: string, next: CrawlState)
    requires cur in st.frontier
    requires Linked(web, domain, seed, st.visited, st.visited + st.frontier)
    requires next.visited == st.visited + {cur}
    requires next.frontier == (st.frontier - {cur}) + (Links(web, domain, cur) - next.visited)
    ensures Linked(web, domain, seed, next.visited, next.visited + next.frontier)
  {
    forall u | u in next.visited + next.frontier
      ensures u == seed || exists v :: v in next.visited && u in Links(web, domain, v)
    {
      if u !in st.visited + st.frontier {
        assert u in Links(web, domain, cur);
      }
    }
  }

  /** Each iteration keeps every reachable accepted page visited or pending. */
  lemma VisitKeepsNothingMissed(web: Web, svc: Services, userId: string, seed: string, domain: string,
                                st: CrawlState, cur: string)
    requires cur in st.frontier
    requires NothingMissed(web, svc, userId, seed, domain, st.visited, st.frontier)
    ensures var r := Visit(web, svc, userId, domain, st, cur);
      r.Ok? ==> NothingMissed(web, svc, userId, seed, domain, r.value.visited, r.value.frontier)
  {
    var r := Visit(web, svc, userId, domain, st, cur);
    if r.Ok? {
      var next := r.value;
      var known := next.visited + next.frontier;
      // what was known stays known, except a popped page that was not accepted
      assert forall x :: x in st.visited + st.frontier && Accepted(web, svc, userId, x) ==> x in known;
      if next.visited != st.visited {
        assert Links(web, domain, cur) <= known;
      }
    }
  }

  /** What the crawl loop keeps: the crawl invariant, no reachable accepted
      page lost, and an accepted seed visited once the first page was popped. */
  predicate LoopInvariant(web: Web, svc: Services, userId: string, seed: string, domain: string, depth: int,
                          st: CrawlState) {
    && CrawlInvariant(web, svc, userId, seed, domain, depth, st)
    && NothingMissed(web, svc, userId, seed, domain, st.visited, st.frontier)
    && Linked(web, domain, seed, st.visited, st.visited + st.frontier)
    && (Accepted(web, svc, userId, seed) ==> seed in st.visited || st == CrawlState({}, {seed}))
  }

  lemma VisitKeepsLoopInvariant(web: Web, svc: Services, userId: string, seed: string, domain: string, depth: int,
                                st: CrawlState, cur: string)
    requires cur in st.frontier && |st.visited| < depth
    requires LoopInvariant(web, svc, userId, seed, domain, depth, st)
    ensures var r := Visit(web, svc, userId, domain, st, cur);
      r.Ok? ==>
        && LoopInvariant(web, svc, userId, seed, domain, depth, r.value)
        && (|r.value.visited| == |st.visited| + 1 || (r.value.visited == st.visited && |r.value.frontier| < |st.frontier|))
  {
    VisitKeepsInvariant(web, svc, userId, seed, domain, depth, st, cur);
    VisitKeepsNothingMissed(web, svc, userId, seed, domain, st, cur);
    VisitKeepsLinked(web, svc, userId, seed, domain, st, cur);
  }

  /** The `while urls_to_visit and len(visited_urls) < depth` loop: pops an
      arbitrary frontier URL each time, as `set.pop()` does. */
  method CrawlLoop(web: Web, svc: Services, userId: string, seed: string, domain: string, depth: int)
    returns (r: Result<CrawlState>)
    requires 1 <= depth <= 5
    ensures r.Ok? ==> |r.value.visited| <= depth
    ensures r.Ok? ==> r.value.frontier == {} || |r.value.visited| == depth
    ensures r.Ok? ==> r.value.visited !! r.value.frontier
    ensures r.Ok? ==> Confined(r.value.visited + r.value.frontier, seed, domain)
    ensures r.Ok? ==> forall u :: u in r.value.visited ==> Accepted(web, svc, userId, u)
    ensures r.Raised? ==> exists u ::
      && (u == seed || exists v :: Accepted(web, svc, userId, v) && u in Links(web, domain, v))
      && Accepted(web, svc, userId, u) && ExtractLinks(web, GetPageContent(web, u), domain) == Raised(r.message)
    // the crawl goes only where the seed and processed pages point
    ensures r.Ok? ==> Linked(web, domain, seed, r.value.visited, r.value.visited + r.value.frontier)
    // an accepted seed is always crawled, and a crawl that ends below the
    // page budget has visited every accepted page it can reach
    ensures r.Ok? && Accepted(web, svc, userId, seed) ==> seed in r.value.visited
    ensures r.Ok? ==> NothingMissed(web, svc, userId, seed, domain, r.value.visited, r.value.frontier)
  {
    var st := CrawlState({}, {seed});
    while st.frontier != {} && |st.visited| < depth
      invariant LoopInvariant(web, svc, userId, seed, domain, depth, st)
      decreases depth - |st.visited|, |st.frontier|
    {
      var cur :| cur in st.frontier;
      var next := Visit(web, svc, userId, domain, st, cur);
      if next.Raised? {
        assert Accepted(web, svc, userId, cur);
        assert cur == seed || exists v :: v in st.visited && cur in Links(web, domain, v);
        return Raised(next.message);
      }
      VisitKeepsLoopInvariant(web, svc, userId, seed, domain, depth, st, cur);
      st := next.value;
    }
    return Ok(st);
  }

  /** The visited set the loop leaves, or the exception that ended it. */
  method CrawlPages(web: Web, svc: Services, userId: string, seed: string, domain: string, depth: int)
    returns (visited: set<string>, loopError: Option<string>)
    requires 1 <= depth <= 5
    ensures loopError.Some? ==> visited == {}
    ensures |visited| <= depth
    ensures Confined(visited, seed, domain)
    ensures forall u :: u in visited ==> Accepted(web, svc, userId, u)
    ensures Linked(web, domain, seed, visited, visited)
    ensures loopError.None? && Accepted(web, svc, userId, seed) ==> seed in visited
    ensures loopError.None? && |visited| < depth ==> NothingMissed(web, svc, userId, seed, domain, visited, {})
  {
    var r := CrawlLoop(web, svc, userId, seed, domain, depth);
    if r.Raised? {
      return {}, Some(r.message);
    }
    assert Confined(r.value.visited + r.value.frontier, seed, domain);
    if |r.value.visited| < depth {
      assert r.value == CrawlState(r.value.visited, {});
    }
    return r.value.visited, None;
  }

  /** The step of `crawl_website` that may raise, and the exception text each
      one raises with; `None` where the step completes. */
  datatype CrawlFaults = CrawlFaults(
    // update_job_status(job_id, "pending")
    pendingWrite: Option<string>,
    // update_web_crawl_urls(user_id, url)
    recordUrl: Option<string>,
    // setup_selenium_driver()
    startDriver: Option<string>,
    // update_job_status(job_id, "succeeded")
    succeededWrite: Option<string>,
    // update_job_status(job_id, "failed", str(e)) in the inner handler
    innerFailedWrite: Option<string>,
    // driver.quit()
    quit: Option<string>,
    // update_job_status(job_id, "failed", str(e)) in the outer handler
    outerFailedWrite: Option<string>)

  /** What the browser session of lines 141-176 leaves behind: the loop,
      the `succeeded` update, the inner handler and `driver.quit()`. */
  datatype Session = Session(
    store: Database.Store,
    statusWrites: seq<Database.JobStatus>,
    visited: set<string>,
    loopError: Option<string>,
    raised: Option<string>,
    // `driver.quit()` was called in the `finally` clause
    quitCalled: bool)

  /** The inner `try/except/finally` of `crawl_website`, once the driver exists. */
  method DriverSession(web: Web, svc: Services, faults: CrawlFaults, s: Database.Store,
                       url: string, domain: string, userId: string, jobId: string, depth: int, now: Database.Time)
    returns (out: Session)
    requires 1 <= depth <= 5
    requires GetDomain(web, url) == Ok(domain)
    ensures out.quitCalled
    ensures out.raised.None? <==> out.loopError.None? && faults.succeededWrite.None? && faults.quit.None?
    ensures out.statusWrites == (
      if out.loopError.None? && faults.succeededWrite.None? then [Database.Succeeded]
      else if faults.innerFailedWrite.None? then [Database.Failed]
      else [])
    ensures out.loopError.Some? && faults.innerFailedWrite.None? && faults.quit.None? ==> out.raised == out.loopError
    ensures out.store.users == s.users
    ensures out.store.jobs.Keys == s.jobs.Keys
    ensures forall id :: id in s.jobs && id != jobId ==> out.store.jobs[id] == s.jobs[id]
    ensures jobId in s.jobs && |out.statusWrites| > 0 ==>
      out.store.jobs[jobId].status == out.statusWrites[|out.statusWrites| - 1]
    ensures |out.statusWrites| == 0 ==> out.store == s
    ensures |out.visited| <= depth
    ensures Confined(out.visited, url, domain)
    ensures Linked(web, domain, url, out.visited, out.visited)
    ensures forall u :: u in out.visited ==> Accepted(web, svc, userId, u)
    ensures out.loopError.None? && Accepted(web, svc, userId, url) ==> url in out.visited
    ensures out.loopError.None? && |out.visited| < depth ==>
      NothingMissed(web, svc, userId, url, domain, out.visited, {})
  {
    var store := s;
    var writes: seq<Database.JobStatus> := [];
    var visited: set<string> := {};
    var inner: Option<string> := None;
    var quitCalled := false;
    var loopError;
    visited, loopError := CrawlPages(web, svc, userId, url, domain, depth);
    if loopError.Some? {
      inner := loopError;
    } else {
      if faults.succeededWrite.Some? {
        inner := faults.succeededWrite;
      } else {
        store := Database.UpdateJobStatus(store, jobId, Database.Succeeded, None, now);
        writes := [Database.Succeeded];
      }
    }
    if inner.Some? {
      if faults.innerFailedWrite.Some? {
        inner := faults.innerFailedWrite;
      } else {
        store := Database.UpdateJobStatus(store, jobId, Database.Failed, inner, now);
        writes := [Database.Failed];
      }
    }
    // finally: driver.quit()
    quitCalled := true;
    if faults.quit.Some? {
      inner := faults.quit;
    }
    out := Session(store, writes, visited, loopError, inner, quitCalled);
  }

  /** What one run of `crawl_website` leaves behind. */
  datatype CrawlRun = CrawlRun(
    store: Database.Store,
    // the status updates that took effect, in order
    statusWrites: seq<Database.JobStatus>,
    driverStarted: bool,
    driverQuit: bool,
    // the crawl's visited set, when the loop completed
    visited: set<string>,
    // the exception the loop raised, if any
    loopError: Option<string>,
    // the exception `crawl_website` itself raises, if any
    raised: Option<string>)

  /** The outer `try` body of `crawl_website` (lines 136-176), before the
      outer handler: `raised` is what it raises. */
  method CrawlAttempt(web: Web, svc: Services, faults: CrawlFaults, s: Database.Store,
                      url: string, userId: string, jobId: string, depth: int, now: Database.Time)
    returns (run: CrawlRun)
    requires 1 <= depth <= 5
    ensures run.driverQuit == run.driverStarted
    ensures run.driverStarted <==>
      faults.pendingWrite.None? && faults.recordUrl.None? && web.parse(url).Ok? && faults.startDriver.None?
    ensures run.raised.None? <==>
      run.driverStarted && run.loopError.None? && faults.succeededWrite.None? && faults.quit.None?
    ensures run.raised.None? ==> run.statusWrites == [Database.Pending, Database.Succeeded]
    ensures faults.pendingWrite.None? ==> |run.statusWrites| > 0 && run.statusWrites[0] == Database.Pending
    ensures faults.pendingWrite.Some? ==> run.statusWrites == [] && run.store == s
    ensures |run.statusWrites| > 0 && run.statusWrites[|run.statusWrites| - 1] == Database.Succeeded ==>
      run.raised.None? || faults.quit.Some?
    ensures run.loopError.Some? && faults.innerFailedWrite.None? && faults.quit.None? ==>
      run.raised == run.loopError
    // a seed `urlparse` rejects fails the job with its `ValueError`
    ensures faults.pendingWrite.None? && faults.recordUrl.None? && web.parse(url).Raised? ==>
      run.raised == Some(web.parse(url).message)
    ensures run.store.jobs.Keys == s.jobs.Keys
    ensures jobId in s.jobs && |run.statusWrites| > 0 ==>
      run.store.jobs[jobId].status == run.statusWrites[|run.statusWrites| - 1]
    ensures forall id :: id in s.jobs && id != jobId ==> run.store.jobs[id] == s.jobs[id]
    ensures Database.GetWebCrawlUrls(run.store, userId) ==
      if faults.pendingWrite.None? && faults.recordUrl.None? && userId in s.users
      then Database.GetWebCrawlUrls(s, userId) + [url] else Database.GetWebCrawlUrls(s, userId)
    ensures |run.visited| <= depth
    ensures !run.driverStarted ==> run.visited == {}
    ensures run.driverStarted ==> Confined(run.visited, url, GetDomain(web, url).value)
    ensures run.driverStarted ==> Linked(web, GetDomain(web, url).value, url, run.visited, run.visited)
    ensures forall u :: u in run.visited ==> Accepted(web, svc, userId, u)
    ensures run.driverStarted && run.loopError.None? && Accepted(web, svc, userId, url) ==> url in run.visited
    ensures run.driverStarted && run.loopError.None? && |run.visited| < depth ==>
      NothingMissed(web, svc, userId, url, GetDomain(web, url).value, run.visited, {})
  {
    var store := s;
    var writes: seq<Database.JobStatus> := [];
    var started, quit := false, false;
    var visited: set<string> := {};
    var loopError: Option<string> := None;
    var err: Option<string> := None;
    if faults.pendingWrite.Some? {
      err := faults.pendingWrite;
    } else {
      store := Database.UpdateJobStatus(store, jobId, Database.Pending, None, now);
      writes := writes + [Database.Pending];
      if faults.recordUrl.Some? {
        err := faults.recordUrl;
      } else {
        store := Database.UpdateWebCrawlUrls(store, userId, url);
        var domain := GetDomain(web, url);
        if domain.Raised? {
          err := Some(domain.message);
        } else if faults.startDriver.Some? {
          err := faults.startDriver;
        } else {
          started := true;
          var session := DriverSession(web, svc, faults, store, url, domain.value, userId, jobId, depth, now);
          quit := session.quitCalled;
          store := session.store;
          writes := writes + session.statusWrites;
          visited := session.visited;
          loopError := session.loopError;
          err := session.raised;
        }
      }
    }
    run := CrawlRun(store, writes, started, quit, visited, loopError, err);
  }

  /** `crawl_website(url, user_id, job_id, depth)` against the store. */
  method CrawlWebsite(web: Web, svc: Services, faults: CrawlFaults, s: Database.Store,
                      url: string, userId: string, jobId: string, depth: int, now: Database.Time)
    returns (run: CrawlRun)
    requires 1 <= depth <= 5
    // the browser is released on every path after it was created
    ensures run.driverQuit == run.driverStarted
    ensures run.driverStarted <==>
      faults.pendingWrite.None? && faults.recordUrl.None? && web.parse(url).Ok? && faults.startDriver.None?
    // the job completes exactly when every step does
    ensures run.raised.None? <==>
      run.driverStarted && run.loopError.None? && faults.succeededWrite.None? && faults.quit.None?
    ensures run.raised.None? ==> run.statusWrites == [Database.Pending, Database.Succeeded]
    ensures faults.pendingWrite.None? ==> |run.statusWrites| > 0 && run.statusWrites[0] == Database.Pending
    // `succeeded` stays the last status only when nothing failed, or the failure could not be recorded
    ensures |run.statusWrites| > 0 && run.statusWrites[|run.statusWrites| - 1] == Database.Succeeded ==>
      run.raised.None? || faults.outerFailedWrite.Some?
    ensures run.raised.Some? && faults.outerFailedWrite.None? ==>
      |run.statusWrites| > 0 && run.statusWrites[|run.statusWrites| - 1] == Database.Failed
    // a failing outer `failed` write replaces the job's error with its own
    ensures run.raised.Some? && faults.outerFailedWrite.Some? ==> run.raised == faults.outerFailedWrite
    // the loop's exception is re-raised when no later step raises another
    ensures run.loopError.Some? && faults.innerFailedWrite.None? && faults.quit.None? && faults.outerFailedWrite.None? ==>
      run.raised == run.loopError
    // the job row ends with the last status written
    ensures jobId in s.jobs ==> jobId in run.store.jobs
    ensures jobId in s.jobs && |run.statusWrites| > 0 ==>
      run.store.jobs[jobId].status == run.statusWrites[|run.statusWrites| - 1]
    ensures jobId in s.jobs && run.raised.Some? && faults.outerFailedWrite.None? && Database.Truthy(run.raised) ==>
      run.store.jobs[jobId].errorMessage == run.raised
    ensures forall id :: id in s.jobs && id != jobId ==> id in run.store.jobs && run.store.jobs[id] == s.jobs[id]
    // the seed is recorded once the pending status is written
    ensures Database.GetWebCrawlUrls(run.store, userId) ==
      if faults.pendingWrite.None? && faults.recordUrl.None? && userId in s.users
      then Database.GetWebCrawlUrls(s, userId) + [url] else Database.GetWebCrawlUrls(s, userId)
    // the crawl's own guarantees
    ensures |run.visited| <= depth
    ensures !run.driverStarted ==> run.visited == {}
    ensures run.driverStarted ==> Confined(run.visited, url, GetDomain(web, url).value)
    ensures run.driverStarted ==> Linked(web, GetDomain(web, url).value, url, run.visited, run.visited)
    ensures forall u :: u in run.visited ==> Accepted(web, svc, userId, u)
    ensures run.driverStarted && run.loopError.None? && Accepted(web, svc, userId, url) ==> url in run.visited
    ensures run.driverStarted && run.loopError.None? && |run.visited| < depth ==>
      NothingMissed(web, svc, userId, url, GetDomain(web, url).value, run.visited, {})
  {
    run := CrawlAttempt(web, svc, faults, s, url, userId, jobId, depth, now);
    if run.raised.Some? && faults.outerFailedWrite.Some? {
      run := run.(raised := faults.outerFailedWrite);
    } else if run.raised.Some? {
      run := run.(store := Database.UpdateJobStatus(run.store, jobId, Database.Failed, run.raised, now),
                  statusWrites := run.statusWrites + [Database.Failed]);
    }
  }
}
